=== FILE: README.md ===
# muka, modelled in Dafny

muka finds duplicate files under a directory. Its four prototypes share one
pipeline:

1. Walk the tree and collect the regular files.
2. Digest their contents.
3. Group files with equal digests, the first one seen as the *original* and
   the later ones as its *duplicates*.
4. Print the groups, or remove the duplicates, either without asking
   ("force") or one group at a time through an interactive prompt.

The model names each prototype by where it lives:

- the **root** prototype, package `main` in the repository root;
- the **`files`** prototype, which like the root one hashes every walked
  file and ignores read errors in the prompt;
- the **`muka`** prototype, which adds exclusion patterns and a size
  pre-filter (a file is digested only when another walked file has the
  same size) and hashes in place, leaving `""` for files it skips; it
  also returns the deleted files and computes a report;
- the **`pkg/muka`** prototype, the same pipeline with the hashed files in a
  list of their own next to every walked file, and a cache whose
  `GetDuplicates` filters the groups.

The root and `files` prototypes are "the two earlier" ones; `muka` and
`pkg/muka` are "the two later" ones.

The model has one Dafny module per concern:

| module | file | what it holds |
|---|---|---|
| `Base` | base.dfy | `Option`, `Result`, `strings.Join` and `strings.Split` (the latter with a one-character separator) |
| `Records` | records.dfy | `FileData`, `FileHash`, `DuplicateFile`, the plain-text rendering of a group |
| `DuplicateCache` | cache.dfy | the grouping cache (`NewCache`, `findDuplicateFile`, `Add`, both `GetDuplicates`), its invariant, and a cache-free reference description of the grouping |
| `FileWalk` | walk.dfy | the walk over an ordered tree, with directory pruning, file exclusion and abort on an unreadable entry, checked against a flat list of leaves |
| `Hashing` | hashing.dfy | the size cache and the three digesting strategies |
| `Deletion` | deletion.dfy | force deletion in its three forms, the print-only filter, mode selection |
| `Prompt` | prompt.dfy | the interactive prompt of the two later prototypes and of the two earlier ones |
| `Deleter` | deleter.dfy | the dry-run and real deleters over a filesystem modelled as a set of paths |
| `Patterns` | patterns.dfy | `CompileSpaceSeparatedPatterns` |
| `Report` | report.dfy | the integer part of `CalculateReport` |
| `Pipeline` | pipeline.dfy | the prototypes' `CollectFiles` and `FindDuplicateFiles` end to end |

Everything outside the program's own logic becomes a parameter:

- **The filesystem** is a `Node` tree. Children appear in the order the walk
  visits them. A `Fault` leaf is an entry whose metadata or listing cannot be
  read.
- **The content digest** is a function `digest(path): Option<string>`. It is
  `None` when the file cannot be opened or read.
- **Exclusion patterns** are predicates on base names.
- **The regular-expression compiler** is a function returning `Result`.
- **The deleter's success** on a path is a function `ok(path)` inside the
  deletion policies. `Deleter` models the two concrete deleters separately.
- **Standard input** is one string. Reading follows `bufio.Reader.ReadString('\n')`.

## Model

| member | source | states |
|---|---|---|
| Base.Split | pkg/muka/muka.go:310 | joining the pieces with the separator gives the input back, no piece contains the separator, and there is at least one piece |
| Base.SplitCount | pkg/muka/muka.go:310 | there is one more token than there are spaces |
| Records.Render | muka/muka.go:34-53 | the text is "Original: " and the original's path on its own line; when there are duplicates, "Duplicates: [ ", their paths joined by ", " in order, and " ]" follow |
| DuplicateCache.NewCache | pkg/muka/duplicate_file_cache.go:10-16 | the new cache has an empty map and no groups, and it satisfies the cache invariant |
| DuplicateCache.FindDuplicateFile | pkg/muka/duplicate_file_cache.go:18-27 | the result is the first group whose original has the digest, or -1 exactly when no group has it |
| DuplicateCache.OriginalHashesFind | pkg/muka/duplicate_file_cache.go:18-27 | a digest is among the originals' digests exactly when the search finds a group |
| DuplicateCache.FindAfterHit | pkg/muka/duplicate_file_cache.go:31-34 | under the invariant, a map hit always yields a real group index, never -1, and that group's original is the one the map holds |
| DuplicateCache.AppendDuplicateValid | pkg/muka/duplicate_file_cache.go:31-35 | appending a duplicate with its group's digest keeps the invariant |
| DuplicateCache.NewGroupValid | pkg/muka/duplicate_file_cache.go:36-42 | opening a group for an unseen digest keeps the invariant |
| DuplicateCache.Add | pkg/muka/duplicate_file_cache.go:30-43 | every `Add` keeps the invariant: one group per digest, the map's keys are exactly the originals' digests, and every duplicate shares its original's digest |
| DuplicateCache.AddUnseen | pkg/muka/duplicate_file_cache.go:36-42 | an unseen digest appends exactly one group at the end, with the file as original and no duplicates, and adds the digest to the map |
| DuplicateCache.AddSeen | pkg/muka/duplicate_file_cache.go:31-35 | a seen digest leaves the map and the group count unchanged and appends the file to the end of that digest's group only |
| DuplicateCache.Build | pkg/muka/muka.go:221-224 | folding `Add` over the files from `NewCache` yields a cache that satisfies the invariant |
| DuplicateCache.BuildGroupsByHash | pkg/muka/duplicate_file_cache.go:30-43 | after the fold, each group holds exactly the input files with its digest, in input order, so its original is the first file with that digest; every input digest is in the map; groups are ordered by the first appearance of their digest |
| DuplicateCache.BuildCoversHashes | pkg/muka/duplicate_file_cache.go:30-43 | every input digest keys some group |
| DuplicateCache.AppendDuplicateCount | pkg/muka/duplicate_file_cache.go:34-35 | appending a duplicate raises the duplicate total by exactly one |
| DuplicateCache.AddCountsOne | pkg/muka/duplicate_file_cache.go:30-43 | each `Add` raises the number of groups plus duplicates by exactly one |
| DuplicateCache.BuildCountsAdds | pkg/muka/duplicate_file_cache.go:30-43 | summed over all groups, one original plus its duplicates equals the number of `Add` calls |
| DuplicateCache.BuildMembers | pkg/muka/duplicate_file_cache.go:30-43 | no file is lost or invented: a file is a group member exactly when it was added |
| DuplicateCache.AddKeys | pkg/muka/duplicate_file_cache.go:31-37 | `Add` adds exactly the file's digest to the map's keys |
| DuplicateCache.BuildKeys | pkg/muka/duplicate_file_cache.go:31-37 | after the fold, the map's keys are exactly the input digests |
| DuplicateCache.BuildCountsDistinctHashes | pkg/muka/duplicate_file_cache.go:30-43 | there are exactly as many groups as distinct input digests |
| DuplicateCache.GetDuplicates | pkg/muka/duplicate_file_cache.go:46-58 | the result holds exactly the groups with at least one duplicate and a non-empty original digest |
| DuplicateCache.FilterReportedAppend | pkg/muka/duplicate_file_cache.go:50-55 | the filter keeps insertion order: it distributes over concatenation |
| DuplicateCache.InFilteredMembers | pkg/muka/duplicate_file_cache.go:51-55 | every file of a group that passes the filter is in the output |
| DuplicateCache.AllGroups | files/duplicate_file_cache.go:46-49 | the two earlier prototypes' `GetDuplicates` returns every group, including groups without duplicates |
| FileWalk.MatchesAny | pkg/muka/muka.go:138-142 | a name is excluded exactly when some pattern matches it |
| FileWalk.PrunedLeaves | pkg/muka/muka.go:137-144 | nothing below an excluded directory is recorded, and nothing there can fail the walk |
| FileWalk.Walk | pkg/muka/muka.go:131-169 | every file the walk records, and the entry it fails on, lies at or below the walked path; `WalkMatchesLeaves` states which files and which failure |
| FileWalk.WalkChildren | pkg/muka/muka.go:131-169 | the children are walked in order and the first error stops the walk; everything recorded, and the entry it fails on, lies strictly below the directory |
| FileWalk.WalkMatchesLeaves | pkg/muka/muka.go:132-169 | below directories none of which is excluded, the walk fails at the first reached unreadable entry; otherwise it records, in pre-order, exactly the files under no excluded directory whose own name is not excluded, and never a directory |
| FileWalk.WalkChildrenMatchesLeaves | pkg/muka/muka.go:132-169 | the same for a directory's children in order, where the first error stops the walk |
| FileWalk.WalkFromRoot | pkg/muka/muka.go:132-173 | from the root, the walk's outcome is the one its leaves call for |
| FileWalk.WalkWithoutExclusions | files/files.go:56-76 | without exclusions, a tree with no unreadable entry is walked to the end and yields every file in pre-order |
| FileWalk.FaultAbortsEvenIfExcluded | pkg/muka/muka.go:133-135 | an unreadable entry aborts the walk even when its own name matches an exclusion, because the error is checked first |
| Hashing.SizeCounts | pkg/muka/muka.go:157-161 | reading the size cache (a miss reads as 0) gives the number of recorded files of each size, and its keys are exactly the sizes seen |
| Hashing.HashSelected | pkg/muka/muka.go:181-201 | a hashed record is in the output exactly when its file was walked, the size cache counts more than one file of its size, and its digest succeeded with that value; the output is never longer than the input |
| Hashing.HashSelectedAppend | pkg/muka/muka.go:184-198 | hashing keeps walk order: it distributes over concatenation |
| Hashing.UniqueSizeNeverHashed | pkg/muka/muka.go:185-187 | with the walk's own size cache, no file of unique size is ever hashed |
| Hashing.HashInPlace | muka/muka.go:132-144 | every walked file is kept in order; its digest is filled in when at least two files share its size and it can be read, and stays "" otherwise |
| Hashing.InPlaceAgreesWithSelected | muka/muka.go:132-144 | unless some readable file digests to "", dropping the unhashed entries of the in-place list gives exactly the selective list |
| Hashing.HashEach | files/files.go:65-73 | a record is in the output exactly when its file was walked and its digest succeeded; unreadable files are skipped |
| Hashing.SelectedIsSharedThenEach | pkg/muka/muka.go:184-197 | selective hashing is hash-everything applied to the files of shared size |
| Hashing.HashEachAppend | files/files.go:56-76 | hash-everything keeps walk order |
| Deletion.DeleteEach | pkg/muka/muka.go:286-292 | a file is reported removed exactly when it was handed to the deleter and the removal succeeded |
| Deletion.DeleteEachAppend | pkg/muka/muka.go:285-293 | removed files keep call order across groups |
| Deletion.DeleteGroup | pkg/muka/muka.go:286-292 | one group's duplicates are handed to the deleter in order, and the successes are kept |
| Deletion.ForceDelete | pkg/muka/muka.go:283-296 | the deleter is called on exactly the concatenation of all groups' duplicates, in order, never on an original; failures do not stop the loop; the result is the removed subset in call order |
| Deletion.ForceDeleteIgnoringErrors | files/files.go:158-163 | the same calls, with every error ignored |
| Deletion.ForceDeleteSkippingEmpty | muka.go:155-165 | skipping groups without duplicates makes exactly the same calls |
| Deletion.Printed | muka.go:123-129 | exactly the groups with at least one duplicate are printed |
| Deletion.PrintedAppend | muka.go:124-128 | printing keeps group order |
| Deletion.PrintedKeepsDuplicates | muka.go:123-129 | dropping the groups without duplicates loses no duplicate |
| Deletion.SelectMode | muka.go:178-186 | force wins over interactive, which wins over print-only |
| Prompt.ReadLine | pkg/muka/muka.go:238 | a read returns the data up to and including the first newline and leaves the rest; with no newline it returns everything with the end-of-input error |
| Prompt.ReadLineOfLine | pkg/muka/muka.go:238 | a complete line always reads as itself, whatever follows it |
| Prompt.PromptToDelete | pkg/muka/muka.go:231-272 | the group is shown at least once; the deleter gets nothing, every duplicate or only the original; a read error deletes nothing; only successfully removed files of the group are returned; input without a newline is a read error after one round |
| Prompt.NoiseLineAsksAgain | pkg/muka/muka.go:243-245 | a lone newline or a line starting with any byte other than `d`, `o` or `s` costs exactly one more round and nothing else |
| Prompt.NoiseSkipped | pkg/muka/muka.go:234-245 | any number of such lines only add rounds |
| Prompt.DecisiveLine | pkg/muka/muka.go:247-266 | on `d` every duplicate is handed over in order and the removed ones are returned with no error; on `o` only the original is handed over and it is returned, or the deleter's error is; on `s` nothing happens |
| Prompt.NoiseThenEndFails | pkg/muka/muka.go:238-241 | input that ends before a decisive line is a read error, after one round per noise line plus one |
| Prompt.LaterAsksTwiceBeforeOriginal | muka/muka_test.go:291-331 | in the later prompt, "x\no\n" and "\no\n" each show the group twice and then hand over only the original |
| Prompt.EarlierAsksTwiceBeforeOriginal | files/files_test.go:281-319 | in the prompt that ignores read errors, "x\no\n" and "\no\n" each show the group twice and then hand over only the original |
| Prompt.PromptIgnoringErrors | files/files.go:117-148 | the group is shown at least once; the deleter gets nothing, every duplicate or only the original; empty input crashes on the first byte |
| Prompt.AgreesWhenReadsSucceed | files/files.go:124-146 | when the later prompt does not fail on a read, the earlier one makes the same deleter calls after the same number of rounds |
| Prompt.NoiseThenEndCrashes | files/files.go:124-129 | complete noise lines and then end of input make the earlier prompt read an empty line and crash |
| Prompt.UnterminatedAnswer | files/files.go:124-146 | a last answer without its newline is dispatched by the earlier prompt on its first byte (`d` every duplicate, `o` the original, `s` nothing) after one round, and refused by the later one as a read error that deletes nothing |
| Prompt.PromptGuarded | muka.go:87-91 | a group without duplicates is neither shown nor asked about |
| Prompt.AsksTwiceBeforeOriginal | muka_test.go:285-347 | in the root prototype, "x\no\n" and "\no\n" each show the group twice and then remove the original |
| Deleter.MakeDeleter | files/deleter.go:30-36 | a dry run gets the no-op deleter, otherwise the real one |
| Deleter.Delete | files/deleter.go:15-27 | the dry-run deleter never fails, changes nothing and prints the "would be removed" line; the real one removes exactly the path, prints nothing, and fails, changing nothing, exactly when the path is absent |
| Deleter.DryRunChangesNothing | files/deleter.go:15-20 | over many calls the dry run leaves the filesystem alone, never fails, and prints one announcement per path, in order |
| Deleter.RemovesExactly | files/deleter.go:24-27 | over many calls the real deleter removes exactly the given paths and prints nothing |
| Deleter.FailsOnMissing | files/deleter.go:24-27 | with each path given once, exactly the calls for paths that were never there fail, in call order |
| Patterns.CompileSpaceSeparatedPatterns | pkg/muka/muka.go:303-320 | "" gives no pattern and no error; otherwise every space-separated token is compiled in order; without an error there is one pattern per token; on an error, the patterns compiled before the failing token are returned with that token's error |
| Patterns.SplitExamples | muka/muka_test.go:367-384 | "a" has one token and "a b" has two |
| Report.Sum | pkg/muka/muka.go:325-331 | the running total is the sum of the sizes |
| Report.CalculateReport | pkg/muka/muka.go:323-356 | the collected count and byte total are those of the walked files; the duplicate count and bytes cover every group's duplicates, never the originals; the deleted count and bytes are those of the deleted list |
| Report.CalculateReportOfHashes | muka/muka.go:269-299 | the same, with the collected list being the hashed list itself |
| Pipeline.CollectFiles | pkg/muka/muka.go:129-179 | the walk fails exactly at a reached unreadable entry; otherwise the encountered files are the reached, non-excluded files in walk order; a file is hashed exactly when it was encountered, shares its size with another encountered file and can be read, and it carries its own digest |
| Pipeline.FindDuplicateFiles | pkg/muka/muka.go:219-227 | a hashed file is reported exactly when its digest is not empty and another hashed file shares it; each reported group holds, in input order, every file with its digest and has at least one duplicate |
| Pipeline.DuplicatesShareDigests | pkg/muka/duplicate_file_cache.go:30-58 | folding `Add` over any list and filtering the groups reports a file exactly when it was added, its digest is not empty and another added file shares it; each reported group holds, in input order, every file with its digest and has at least one duplicate; no two reported groups share a digest |
| Pipeline.CollectFilesInPlace | muka/muka.go:86-147 | the walk fails exactly when a reached entry cannot be read, and the error names the first such entry; otherwise one record per recorded file, in walk order; a file whose size is shared and which can be read carries its digest, a file of unique size carries "", and a non-empty digest is always the file's own |
| Pipeline.InPlaceMatchesPkgMuka | muka/muka.go:132-144 | unless some file digests to "", the `muka` and `pkg/muka` prototypes succeed together, and the hashed entries of the first are the hashed list of the second |
| Pipeline.CollectHashedFiles | files/files.go:53-83 | a tree without unreadable entries gives every file's successful digest in walk order; every record is a walked file with its own digest; the walk fails exactly when an entry cannot be read, and the error names the first such entry in walk order; a successful walk gives exactly the successful digests of the walked files, in walk order |
| Pipeline.FindDuplicateFilesUnfiltered | files/files.go:106-114 | the two earlier prototypes report exactly one group per distinct input digest, no two groups sharing a digest, ordered by each digest's first appearance, each holding every file with that digest in input order; a single file makes one group with no duplicate |
| Pipeline.FewerDuplicatesThanFiles | pkg/muka/muka.go:348-352 | the duplicate count never exceeds the number of walked files, so the duplicate percentage is at most 100 whenever at least one file was walked |

## Left out

- SHA-1 and hex encoding are left out. The digest is the oracle `digest(path)`. Opening or reading a file fails exactly when it returns `None`.
- Regular-expression syntax and matching are left out. Patterns are predicates and the compiler is a parameter.
- Floating point is left out: the KB figures (`/ 1000.0`), `DuplicatePercentage` (NaN when no file was walked) and the unit chooser of `pkg/muka`. `Report.CalculateReport` stops at the integer counts and byte totals.
- Report.CalculateReport: its byte totals are unbounded integers and do not model int64 wrap-around, which would take more than 9.2 EB of files.
- Report.Sum: the same, for the running total.
- Colour codes, `log` output and the prompt's question text are left out. Each round counts as one rendering plus one question (`shown`). The dry-run deleter's "would be removed" line is modelled.
- `filepath.Clean`, `filepath.Abs`, `filepath.ToSlash` and the walk's lexical order of children are left out. Paths are the tree's names joined with "/". A failing `Abs` is not modelled.
- The command-line layer (cli/cli.go, main.go, `parseArgs`, `os.Exit`, `os.Getwd`) is left out. Only the mode choice of the root prototype's `main` is modelled, as `Deletion.SelectMode`.
- `PrintDuplicates` of the two later prototypes prints every group it is given. It is a loop over `fmt.Println` and is left out.
- The deletion policies model the deleter as a stateless oracle `ok(path)`. Deleting one path twice therefore gives the same answer both times. The stateful set-of-paths deleter is modelled separately, in `Deleter`.
- `os.Remove` errors other than a missing path (permissions, non-empty directories) are left out.
- The `muka` prototype's own cache and its `FindDuplicateFiles` are not part of this model. Its tests expect the filtering behaviour of the `pkg/muka` cache. `Pipeline.DuplicatesShareDigests` states that behaviour for any list of hashed files, but no member feeds the `muka` prototype's in-place list to a cache.
- files/files_test.go:57-60 expects no group for a single file. The `files` cache returns every group, and the model follows the code: `Pipeline.FindDuplicateFilesUnfiltered` gives one group with no duplicate.
- The prompt dispatches on the line's first byte (`line[0]`), as the code does. Leading whitespace is not skipped.
- A read error other than end of input behaves like end of input.
- `bufio` read-ahead is not modelled. The whole input stream belongs to one prompt call.

## Findings

| source | as written | input that shows it | evidently intended | confidence | as-written member | corrected member |
|---|---|---|---|---|---|---|
| files/files.go:124-129 | the read error is discarded and `line[0]` is taken even when the read returned nothing | empty standard input, or input that ends after noise lines such as "x\n": the next read returns "" and indexing it panics | stop the prompt with the read error, as pkg/muka/muka.go:238-241 later does | not executed; high | Prompt.NoiseThenEndCrashes | Prompt.NoiseThenEndFails |

=== FILE: base.dfy ===
/** Failure-compatible wrappers and the string helpers shared by every
    prototype of the duplicate finder. */
module Base {

  /** An optional value: the model's stand-in for Go's `(value, ok)` pairs
      and for results that may be absent. */
  datatype Option<+T> = None | Some(value: T)

  /** A value or an error, for Go's `(value, error)` returns. */
  datatype Result<+T, +E> = Ok(value: T) | Err(error: E)

  /** `strings.Join`: the pieces with `sep` between consecutive ones. */
  function Join(pieces: seq<string>, sep: string): string
  {
    if |pieces| == 0 then ""
    else if |pieces| == 1 then pieces[0]
    else pieces[0] + sep + Join(pieces[1..], sep)
  }

  /** `strings.Split` with a one-character separator: the maximal runs of
      characters between separators, empty runs included. The two
      ensures clauses pin the result down completely: joining it back
      gives the input, and no piece contains the separator. */
  function Split(s: string, sep: char): (pieces: seq<string>)
    ensures |pieces| >= 1
    ensures Join(pieces, [sep]) == s
    ensures forall i :: 0 <= i < |pieces| ==> sep !in pieces[i]
    decreases |s|
  {
    if |s| == 0 then [""]
    else if s[0] == sep then [""] + Split(s[1..], sep)
    else
      var rest := Split(s[1..], sep);
      [[s[0]] + rest[0]] + rest[1..]
  }

  /** Number of `sep` characters in `s`. */
  function Occurrences(s: string, c: char): nat
  {
    if |s| == 0 then 0 else (if s[0] == c then 1 else 0) + Occurrences(s[1..], c)
  }

  /** `strings.Split` yields one more piece than there are separators. */
  lemma {:induction false} SplitCount(s: string, sep: char)
    ensures |Split(s, sep)| == Occurrences(s, sep) + 1
    decreases |s|
  {
    if |s| != 0 {
      SplitCount(s[1..], sep);
    }
  }
}

=== FILE: cache.dfy ===
/** The duplicate-grouping cache. The root, `files` and `pkg/muka`
    prototypes carry the same `NewCache`, `findDuplicateFile` and `Add`;
    they differ only in the readout: `pkg/muka` filters (`GetDuplicates`),
    the two earlier ones return every group (`AllGroups`). */
module DuplicateCache {
  import opened Base
  import opened Records

  /** The digest-to-original map and the ordered list of groups. */
  datatype Cache = Cache(byHash: map<string, FileHash>, groups: seq<DuplicateFile>)

  /** The cache's representation invariant: one group per digest, the map
      holds exactly the originals' digests and maps each to its group's
      original, and every duplicate shares its original's digest. */
  ghost predicate Valid(c: Cache)
  {
    && (forall i, j :: 0 <= i < j < |c.groups| ==>
          c.groups[i].original.hash != c.groups[j].original.hash)
    && (forall i :: 0 <= i < |c.groups| ==>
          c.groups[i].original.hash in c.byHash
          && c.byHash[c.groups[i].original.hash] == c.groups[i].original)
    && c.byHash.Keys == OriginalHashes(c.groups)
    && (forall i, k :: 0 <= i < |c.groups| && 0 <= k < |c.groups[i].duplicates| ==>
          c.groups[i].duplicates[k].hash == c.groups[i].original.hash)
  }

  /** The digests of the groups' originals. */
  function OriginalHashes(gs: seq<DuplicateFile>): set<string>
  {
    if |gs| == 0 then {} else {gs[0].original.hash} + OriginalHashes(gs[1..])
  }

  lemma {:induction false} OriginalHashesFind(gs: seq<DuplicateFile>, h: string)
    ensures h in OriginalHashes(gs) <==> FindDuplicateFile(gs, h) >= 0
  {
    if |gs| != 0 {
      OriginalHashesFind(gs[1..], h);
    }
  }

  lemma {:induction false} OriginalHashesAppend(gs: seq<DuplicateFile>, g: DuplicateFile)
    ensures OriginalHashes(gs + [g]) == OriginalHashes(gs) + {g.original.hash}
  {
    if |gs| == 0 {
      assert gs + [g] == [g];
    } else {
      assert (gs + [g])[1..] == gs[1..] + [g];
      OriginalHashesAppend(gs[1..], g);
    }
  }

  lemma {:induction false} OriginalHashesUpdate(gs: seq<DuplicateFile>, i: nat, g: DuplicateFile)
    requires i < |gs| && g.original == gs[i].original
    ensures OriginalHashes(gs[i := g]) == OriginalHashes(gs)
  {
    if i > 0 {
      assert gs[i := g][1..] == gs[1..][i - 1 := g];
      OriginalHashesUpdate(gs[1..], i - 1, g);
    }
  }

  /** `NewCache`: an empty map and no groups, which satisfies the invariant. */
  function NewCache(): (c: Cache)
    ensures Valid(c)
    ensures |c.groups| == 0 && |c.byHash| == 0
  {
    Cache(map[], [])
  }

  /** `findDuplicateFile`: the first group whose original has digest `h`,
      or -1 when there is none. */
  function FindDuplicateFile(groups: seq<DuplicateFile>, h: string): (idx: int)
    ensures -1 <= idx < |groups|
    ensures 0 <= idx ==> groups[idx].original.hash == h
    ensures 0 <= idx ==> forall j :: 0 <= j < idx ==> groups[j].original.hash != h
    ensures idx == -1 <==> forall j :: 0 <= j < |groups| ==> groups[j].original.hash != h
  {
    if |groups| == 0 then -1
    else if groups[0].original.hash == h then 0
    else
      var k := FindDuplicateFile(groups[1..], h);
      if k == -1 then -1 else k + 1
  }

  /** The comment in `Add` claims the index found after a map hit need not
      be checked: under the invariant it is a real group, and that group's
      original is the one the map records. */
  lemma FindAfterHit(c: Cache, h: string)
    requires Valid(c)
    requires h in c.byHash
    ensures 0 <= FindDuplicateFile(c.groups, h) < |c.groups|
    ensures c.groups[FindDuplicateFile(c.groups, h)].original == c.byHash[h]
  {
    OriginalHashesFind(c.groups, h);
  }

  /** The groups with file `f` appended to the duplicates of group `i`. */
  function AppendDuplicate(groups: seq<DuplicateFile>, i: nat, f: FileHash): seq<DuplicateFile>
    requires i < |groups|
  {
    groups[i := groups[i].(duplicates := groups[i].duplicates + [f])]
  }

  lemma AppendDuplicateValid(c: Cache, i: nat, f: FileHash)
    requires Valid(c)
    requires i < |c.groups| && c.groups[i].original.hash == f.hash
    ensures Valid(Cache(c.byHash, AppendDuplicate(c.groups, i, f)))
  {
    var gs := AppendDuplicate(c.groups, i, f);
    assert forall j :: 0 <= j < |gs| ==> gs[j].original == c.groups[j].original;
    OriginalHashesUpdate(c.groups, i, gs[i]);
  }

  lemma NewGroupValid(c: Cache, f: FileHash)
    requires Valid(c)
    requires f.hash !in c.byHash
    ensures Valid(Cache(c.byHash[f.hash := f], c.groups + [DuplicateFile(f, [])]))
  {
    OriginalHashesAppend(c.groups, DuplicateFile(f, []));
  }

  /** `Add`: files with a digest seen before join that digest's group, an
      unseen digest opens a new group; either way the invariant holds. */
  function Add(c: Cache, f: FileHash): (r: Cache)
    requires Valid(c)
    ensures Valid(r)
  {
    if f.hash in c.byHash then
      FindAfterHit(c, f.hash);
      var idx := FindDuplicateFile(c.groups, f.hash);
      AppendDuplicateValid(c, idx, f);
      Cache(c.byHash, AppendDuplicate(c.groups, idx, f))
    else
      NewGroupValid(c, f);
      Cache(c.byHash[f.hash := f], c.groups + [DuplicateFile(f, [])])
  }

  /** `Add` of an unseen digest appends exactly one group at the end, with
      the file as original and no duplicates; the earlier groups are
      unchanged and the map gains the digest. */
  lemma AddUnseen(c: Cache, f: FileHash)
    requires Valid(c)
    requires f.hash !in c.byHash
    ensures Add(c, f).groups == c.groups + [DuplicateFile(f, [])]
    ensures Add(c, f).byHash == c.byHash[f.hash := f]
  {
  }

  /** `Add` of a seen digest appends the file to the end of the duplicates
      of the one group with that digest; the group count, the map and
      every other group are unchanged. */
  lemma AddSeen(c: Cache, f: FileHash)
    requires Valid(c)
    requires f.hash in c.byHash
    ensures Add(c, f).byHash == c.byHash
    ensures |Add(c, f).groups| == |c.groups|
    ensures 0 <= FindDuplicateFile(c.groups, f.hash) < |c.groups|
    ensures c.groups[FindDuplicateFile(c.groups, f.hash)].original == c.byHash[f.hash]
    ensures Add(c, f).groups == AppendDuplicate(c.groups, FindDuplicateFile(c.groups, f.hash), f)
  {
    FindAfterHit(c, f.hash);
  }

  /** Folding `Add` over the files in order, starting from `NewCache`. */
  function Build(fs: seq<FileHash>): (c: Cache)
    ensures Valid(c)
    decreases |fs|
  {
    if |fs| == 0 then NewCache() else Add(Build(fs[..|fs| - 1]), fs[|fs| - 1])
  }

  /** The `pkg/muka` prototype's `GetDuplicates` keeps a group when it has a
      duplicate and its digest is not empty. */
  predicate Reported(g: DuplicateFile)
  {
    |g.duplicates| > 0 && g.original.hash != ""
  }

  /** The groups that `Reported` keeps, in their original order. */
  function FilterReported(gs: seq<DuplicateFile>): (r: seq<DuplicateFile>)
    ensures forall g :: g in r <==> g in gs && Reported(g)
    ensures |r| <= |gs|
  {
    if |gs| == 0 then []
    else (if Reported(gs[0]) then [gs[0]] else []) + FilterReported(gs[1..])
  }

  /** The groups' originals carry pairwise different digests. */
  predicate DistinctOriginals(gs: seq<DuplicateFile>)
  {
    forall i, j :: 0 <= i < j < |gs| ==> gs[i].original.hash != gs[j].original.hash
  }

  /** Filtering keeps a subsequence, so distinct digests stay distinct. */
  lemma {:induction false} FilterReportedDistinct(gs: seq<DuplicateFile>)
    requires DistinctOriginals(gs)
    ensures DistinctOriginals(FilterReported(gs))
  {
    if |gs| != 0 {
      var rest := FilterReported(gs[1..]);
      FilterReportedDistinct(gs[1..]);
      forall g | g in rest
        ensures g.original.hash != gs[0].original.hash
      {
        var k :| 0 <= k < |gs[1..]| && gs[1..][k] == g;
        assert gs[k + 1] == g;
      }
      if Reported(gs[0]) {
        var r := [gs[0]] + rest;
        assert FilterReported(gs) == r;
        forall i, j | 0 <= i < j < |r|
          ensures r[i].original.hash != r[j].original.hash
        {
          assert r[j] == rest[j - 1] && rest[j - 1] in rest;
          if i > 0 {
            assert r[i] == rest[i - 1];
          }
        }
      } else {
        assert FilterReported(gs) == rest;
      }
    }
  }

  /** Filtering keeps the relative order: it distributes over `+`. */
  lemma {:induction false} FilterReportedAppend(a: seq<DuplicateFile>, b: seq<DuplicateFile>)
    ensures FilterReported(a + b) == FilterReported(a) + FilterReported(b)
  {
    if |a| == 0 {
      assert a + b == b;
    } else {
      assert (a + b)[1..] == a[1..] + b;
      FilterReportedAppend(a[1..], b);
    }
  }

  /** A member of a group that passes the filter survives it. */
  lemma {:induction false} InFilteredMembers(gs: seq<DuplicateFile>, i: nat, f: FileHash)
    requires i < |gs| && Reported(gs[i]) && f in GroupMembers(gs[i])
    ensures f in Members(FilterReported(gs))
  {
    var rest := FilterReported(gs[1..]);
    if i == 0 {
      assert FilterReported(gs) == [gs[0]] + rest;
      assert ([gs[0]] + rest)[1..] == rest;
    } else {
      InFilteredMembers(gs[1..], i - 1, f);
      if Reported(gs[0]) {
        assert FilterReported(gs) == [gs[0]] + rest;
        assert ([gs[0]] + rest)[1..] == rest;
        assert Members(FilterReported(gs)) == GroupMembers(gs[0]) + Members(rest);
      } else {
        assert FilterReported(gs) == rest;
      }
    }
  }

  /** `GetDuplicates` of the `pkg/muka` prototype: exactly the groups with at
      least one duplicate and a non-empty digest. */
  function GetDuplicates(c: Cache): (r: seq<DuplicateFile>)
    ensures forall g :: g in r <==> g in c.groups && |g.duplicates| > 0 && g.original.hash != ""
    ensures forall g :: g in r ==> |GroupMembers(g)| >= 2
  {
    FilterReported(c.groups)
  }

  /** `GetDuplicates` of the two earlier prototypes: every group, including
      those still without a duplicate. */
  function AllGroups(c: Cache): (r: seq<DuplicateFile>)
    ensures |r| == |c.groups|
    ensures forall g :: g in c.groups ==> g in r
  {
    c.groups
  }

  // ---------------------------------------------------------------------
  // A reference description of the grouping, independent of the cache.

  /** The files with digest `h`, in order. */
  function WithHash(fs: seq<FileHash>, h: string): (r: seq<FileHash>)
    ensures forall x :: x in r <==> x in fs && x.hash == h
    ensures |r| <= |fs|
    decreases |fs|
  {
    if |fs| == 0 then []
    else WithHash(fs[..|fs| - 1], h) + (if fs[|fs| - 1].hash == h then [fs[|fs| - 1]] else [])
  }

  /** The position of the first file with digest `h`, or `|fs|`. */
  function FirstIndexOf(fs: seq<FileHash>, h: string): (k: nat)
    ensures k <= |fs|
    ensures k < |fs| ==> fs[k].hash == h
    ensures forall j :: 0 <= j < k ==> fs[j].hash != h
  {
    if |fs| == 0 then 0
    else if fs[0].hash == h then 0
    else 1 + FirstIndexOf(fs[1..], h)
  }

  /** The set of digests among the files. */
  function HashesOf(fs: seq<FileHash>): set<string>
  {
    set x | x in fs :: x.hash
  }

  /** Each group holds exactly the files with its digest, in input order. */
  ghost predicate MembersByHash(gs: seq<DuplicateFile>, fs: seq<FileHash>)
  {
    forall i :: 0 <= i < |gs| ==> GroupMembers(gs[i]) == WithHash(fs, gs[i].original.hash)
  }

  /** Groups are ordered by the first appearance of their digest. */
  ghost predicate FirstSeenOrder(gs: seq<DuplicateFile>, fs: seq<FileHash>)
  {
    forall i, j :: 0 <= i < j < |gs| ==>
      FirstIndexOf(fs, gs[i].original.hash) < FirstIndexOf(fs, gs[j].original.hash)
  }

  /** What `Build(fs)` is meant to be, stated without the cache: each group
      holds exactly the files with its digest in input order (so its
      original is the first of them), every input digest is in the map, and
      groups come in the order their digests first appear. */
  ghost predicate Groups(c: Cache, fs: seq<FileHash>)
  {
    && Valid(c)
    && MembersByHash(c.groups, fs)
    && (forall k :: 0 <= k < |fs| ==> fs[k].hash in c.byHash)
    && FirstSeenOrder(c.groups, fs)
  }

  lemma WithHashSnoc(fs: seq<FileHash>, f: FileHash, h: string)
    ensures WithHash(fs + [f], h) == WithHash(fs, h) + (if f.hash == h then [f] else [])
  {
    assert (fs + [f])[..|fs|] == fs;
  }

  lemma FirstIndexSnoc(fs: seq<FileHash>, f: FileHash, h: string)
    ensures FirstIndexOf(fs, h) < |fs| ==> FirstIndexOf(fs + [f], h) == FirstIndexOf(fs, h)
    ensures FirstIndexOf(fs, h) == |fs| && f.hash == h ==> FirstIndexOf(fs + [f], h) == |fs|
  {
    assert forall j :: 0 <= j < |fs| ==> (fs + [f])[j] == fs[j];
    assert (fs + [f])[|fs|] == f;
  }

  /** A group's digest occurs among the files it was built from. */
  lemma GroupHashOccurs(gs: seq<DuplicateFile>, fs: seq<FileHash>, i: int)
    requires MembersByHash(gs, fs)
    requires 0 <= i < |gs|
    ensures FirstIndexOf(fs, gs[i].original.hash) < |fs|
  {
    var g := gs[i];
    assert g.original in GroupMembers(g);
    assert g.original in fs;
    var k :| 0 <= k < |fs| && fs[k] == g.original;
  }

  lemma AppendDuplicateMembers(gs: seq<DuplicateFile>, fs: seq<FileHash>, i: nat, f: FileHash)
    requires MembersByHash(gs, fs)
    requires i < |gs| && gs[i].original.hash == f.hash
    requires forall j :: 0 <= j < |gs| && j != i ==> gs[j].original.hash != f.hash
    ensures MembersByHash(AppendDuplicate(gs, i, f), fs + [f])
  {
    var gs' := AppendDuplicate(gs, i, f);
    forall j | 0 <= j < |gs'|
      ensures GroupMembers(gs'[j]) == WithHash(fs + [f], gs'[j].original.hash)
    {
      WithHashSnoc(fs, f, gs'[j].original.hash);
      if j == i {
        assert GroupMembers(gs'[j]) == GroupMembers(gs[j]) + [f];
      } else {
        assert gs'[j] == gs[j];
      }
    }
  }

  lemma AppendDuplicateOrder(gs: seq<DuplicateFile>, fs: seq<FileHash>, i: nat, f: FileHash)
    requires MembersByHash(gs, fs) && FirstSeenOrder(gs, fs)
    requires i < |gs|
    ensures FirstSeenOrder(AppendDuplicate(gs, i, f), fs + [f])
  {
    var gs' := AppendDuplicate(gs, i, f);
    forall j | 0 <= j < |gs|
      ensures FirstIndexOf(fs + [f], gs'[j].original.hash) == FirstIndexOf(fs, gs[j].original.hash)
    {
      assert gs'[j].original == gs[j].original;
      GroupHashOccurs(gs, fs, j);
      FirstIndexSnoc(fs, f, gs[j].original.hash);
    }
  }

  /** A digest no file carries selects nothing. */
  lemma {:induction false} WithHashAbsent(fs: seq<FileHash>, h: string)
    requires forall k :: 0 <= k < |fs| ==> fs[k].hash != h
    ensures WithHash(fs, h) == []
    decreases |fs|
  {
    if |fs| != 0 {
      WithHashAbsent(fs[..|fs| - 1], h);
    }
  }

  lemma NewGroupMembers(gs: seq<DuplicateFile>, fs: seq<FileHash>, f: FileHash)
    requires MembersByHash(gs, fs)
    requires forall k :: 0 <= k < |fs| ==> fs[k].hash != f.hash
    requires forall j :: 0 <= j < |gs| ==> gs[j].original.hash != f.hash
    ensures MembersByHash(gs + [DuplicateFile(f, [])], fs + [f])
  {
    var gs' := gs + [DuplicateFile(f, [])];
    WithHashAbsent(fs, f.hash);
    forall j | 0 <= j < |gs'|
      ensures GroupMembers(gs'[j]) == WithHash(fs + [f], gs'[j].original.hash)
    {
      WithHashSnoc(fs, f, gs'[j].original.hash);
    }
  }

  lemma NewGroupOrder(gs: seq<DuplicateFile>, fs: seq<FileHash>, f: FileHash)
    requires MembersByHash(gs, fs) && FirstSeenOrder(gs, fs)
    requires forall k :: 0 <= k < |fs| ==> fs[k].hash != f.hash
    ensures FirstSeenOrder(gs + [DuplicateFile(f, [])], fs + [f])
  {
    var gs' := gs + [DuplicateFile(f, [])];
    forall j | 0 <= j < |gs|
      ensures FirstIndexOf(fs + [f], gs'[j].original.hash) == FirstIndexOf(fs, gs[j].original.hash) < |fs|
    {
      assert gs'[j] == gs[j];
      GroupHashOccurs(gs, fs, j);
      FirstIndexSnoc(fs, f, gs[j].original.hash);
    }
    FirstIndexSnoc(fs, f, f.hash);
    assert gs'[|gs|].original.hash == f.hash;
  }

  lemma AddGroups(c: Cache, fs: seq<FileHash>, f: FileHash)
    requires Groups(c, fs)
    ensures Groups(Add(c, f), fs + [f])
  {
    var r := Add(c, f);
    if f.hash in c.byHash {
      AddSeen(c, f);
      var i := FindDuplicateFile(c.groups, f.hash);
      AppendDuplicateMembers(c.groups, fs, i, f);
      AppendDuplicateOrder(c.groups, fs, i, f);
    } else {
      AddUnseen(c, f);
      NewGroupMembers(c.groups, fs, f);
      NewGroupOrder(c.groups, fs, f);
    }
    assert forall k :: 0 <= k < |fs| ==> (fs + [f])[k] == fs[k];
  }

  /** Grouping by `Add` puts every file with a digest in that digest's one
      group, in input order, so the original is the first such file; each
      input digest gets a group, and groups are ordered by first
      appearance of their digest. */
  lemma {:induction false} BuildGroupsByHash(fs: seq<FileHash>)
    ensures Groups(Build(fs), fs)
    decreases |fs|
  {
    if |fs| != 0 {
      var init := fs[..|fs| - 1];
      var c, f := Build(init), fs[|fs| - 1];
      BuildGroupsByHash(init);
      assert Build(fs) == Add(c, f);
      AddGroups(c, init, f);
      assert init + [f] == fs;
    }
  }

  /** Every input digest keys some group of `Build(fs)`. */
  lemma BuildCoversHashes(fs: seq<FileHash>)
    ensures forall k :: 0 <= k < |fs| ==>
              exists i :: 0 <= i < |Build(fs).groups| && Build(fs).groups[i].original.hash == fs[k].hash
  {
    var c := Build(fs);
    BuildKeys(fs);
    forall k | 0 <= k < |fs|
      ensures exists i :: 0 <= i < |c.groups| && c.groups[i].original.hash == fs[k].hash
    {
      var h := fs[k].hash;
      assert h in HashesOf(fs);
      FindAfterHit(c, h);
      var i := FindDuplicateFile(c.groups, h);
      assert c.groups[i].original.hash == h;
    }
  }

  /** Appending a duplicate adds exactly one duplicate overall. */
  lemma {:induction false} AppendDuplicateCount(gs: seq<DuplicateFile>, i: nat, f: FileHash)
    requires i < |gs|
    ensures DuplicateCount(AppendDuplicate(gs, i, f)) == DuplicateCount(gs) + 1
  {
    var gs' := AppendDuplicate(gs, i, f);
    if i == 0 {
      assert gs'[1..] == gs[1..];
    } else {
      assert gs'[1..] == AppendDuplicate(gs[1..], i - 1, f);
      AppendDuplicateCount(gs[1..], i - 1, f);
    }
  }

  /** Each `Add` accounts for exactly one more file: a new original or a
      new duplicate. */
  lemma AddCountsOne(c: Cache, f: FileHash)
    requires Valid(c)
    ensures |Add(c, f).groups| + DuplicateCount(Add(c, f).groups) == |c.groups| + DuplicateCount(c.groups) + 1
  {
    if f.hash in c.byHash {
      AddSeen(c, f);
      AppendDuplicateCount(c.groups, FindDuplicateFile(c.groups, f.hash), f);
    } else {
      AddUnseen(c, f);
      var g := DuplicateFile(f, []);
      DuplicateCountIsLength(c.groups);
      DuplicateCountIsLength(c.groups + [g]);
      AllDuplicatesAppend(c.groups, [g]);
      assert AllDuplicates([g]) == [] + AllDuplicates([]);
    }
  }

  /** Summed over the groups, one original plus its duplicates equals the
      number of `Add` calls. */
  lemma {:induction false} BuildCountsAdds(fs: seq<FileHash>)
    ensures |Build(fs).groups| + DuplicateCount(Build(fs).groups) == |fs|
    decreases |fs|
  {
    if |fs| != 0 {
      var init := fs[..|fs| - 1];
      var c := Build(init);
      BuildCountsAdds(init);
      assert Build(fs) == Add(c, fs[|fs| - 1]);
      AddCountsOne(c, fs[|fs| - 1]);
    }
  }

  /** No file is lost or invented: the group members are exactly the input
      files (and, by `BuildCountsAdds`, there are as many of them). */
  lemma BuildMembers(fs: seq<FileHash>)
    ensures forall f :: f in Members(Build(fs).groups) <==> f in fs
  {
    var gs := Build(fs).groups;
    BuildGroupsByHash(fs);
    BuildCoversHashes(fs);
    forall f
      ensures f in Members(gs) <==> f in fs
    {
      InMembers(gs, f);
      if f in fs {
        var k :| 0 <= k < |fs| && fs[k] == f;
        var i :| 0 <= i < |gs| && gs[i].original.hash == fs[k].hash;
        assert f in WithHash(fs, gs[i].original.hash);
      }
      if f in Members(gs) {
        var i :| 0 <= i < |gs| && f in GroupMembers(gs[i]);
        assert f in WithHash(fs, gs[i].original.hash);
      }
    }
  }

  /** One `Add` adds the file's digest to the map's keys. */
  lemma AddKeys(c: Cache, f: FileHash)
    requires Valid(c)
    ensures Add(c, f).byHash.Keys == c.byHash.Keys + {f.hash}
  {
    if f.hash in c.byHash {
      AddSeen(c, f);
    } else {
      AddUnseen(c, f);
    }
  }

  /** One `Add` keeps one group per map key. */
  lemma AddKeepsGroupPerKey(c: Cache, f: FileHash)
    requires Valid(c) && |c.groups| == |c.byHash.Keys|
    ensures |Add(c, f).groups| == |Add(c, f).byHash.Keys|
  {
    AddKeys(c, f);
    if f.hash in c.byHash {
      AddSeen(c, f);
    } else {
      AddUnseen(c, f);
    }
  }

  lemma {:induction false} BuildKeys(fs: seq<FileHash>)
    ensures Build(fs).byHash.Keys == HashesOf(fs)
    decreases |fs|
  {
    if |fs| != 0 {
      var init := fs[..|fs| - 1];
      var c, f := Build(init), fs[|fs| - 1];
      BuildKeys(init);
      assert Build(fs) == Add(c, f);
      AddKeys(c, f);
      assert init + [f] == fs;
      assert HashesOf(fs) == HashesOf(init) + {f.hash};
    }
  }

  lemma {:induction false} BuildGroupPerKey(fs: seq<FileHash>)
    ensures |Build(fs).groups| == |Build(fs).byHash.Keys|
    decreases |fs|
  {
    if |fs| != 0 {
      var init := fs[..|fs| - 1];
      var c := Build(init);
      BuildGroupPerKey(init);
      assert Build(fs) == Add(c, fs[|fs| - 1]);
      AddKeepsGroupPerKey(c, fs[|fs| - 1]);
    }
  }

  /** The map's key set is exactly the set of input digests, and there are
      exactly as many groups as distinct digests. */
  lemma BuildCountsDistinctHashes(fs: seq<FileHash>)
    ensures Build(fs).byHash.Keys == HashesOf(fs)
    ensures |Build(fs).groups| == |HashesOf(fs)|
  {
    BuildKeys(fs);
    BuildGroupPerKey(fs);
  }
}

=== FILE: deleter.dfy ===
/** The deleter of the `files` prototype over a filesystem modelled
    as the set of its paths: the dry-run deleter only announces what it
    would remove, the real one removes the path. */
module Deleter {
  import opened Base

  datatype Deleter = NopDeleter | FileDeleter

  /** `MakeDeleter`: a dry run gets the no-op deleter. */
  function MakeDeleter(isDryRun: bool): (d: Deleter)
    ensures d == NopDeleter <==> isDryRun
    ensures d == FileDeleter <==> !isDryRun
  {
    if isDryRun then NopDeleter else FileDeleter
  }

  /** The only way removing a path fails in this model: it is not there. */
  datatype DeleteError = NotExist(path: string)

  /** A filesystem after one call, the call's error and what it printed. */
  datatype Effect = Effect(fs: set<string>, err: Option<DeleteError>, stdout: string)

  /** The line the dry-run deleter prints for a path. */
  function WouldBeRemoved(path: string): string
  {
    "'" + path + "' would be removed.\n"
  }

  /** `Delete` of either deleter. The dry run never fails and changes
      nothing; the real one removes exactly `path`, and fails, changing
      nothing, when the path is absent. */
  function Delete(d: Deleter, fs: set<string>, path: string): (e: Effect)
    ensures d == NopDeleter ==> e == Effect(fs, None, WouldBeRemoved(path))
    ensures d == FileDeleter ==> e.stdout == "" && e.fs == fs - {path}
    ensures d == FileDeleter ==> (e.err == None <==> path in fs)
    ensures e.err.Some? ==> e.err.value.path == path && e.fs == fs
    ensures forall p :: p in fs && p != path ==> p in e.fs
  {
    match d
    case NopDeleter => Effect(fs, None, WouldBeRemoved(path))
    case FileDeleter =>
      if path in fs then Effect(fs - {path}, None, "") else Effect(fs, Some(NotExist(path)), "")
  }

  /** Several calls in order: the final filesystem, the paths whose
      removal failed, and everything printed. */
  datatype Run = Run(fs: set<string>, failed: seq<string>, stdout: string)

  function DeleteAll(d: Deleter, fs: set<string>, paths: seq<string>): Run
    decreases |paths|
  {
    if |paths| == 0 then Run(fs, [], "")
    else
      var init := DeleteAll(d, fs, paths[..|paths| - 1]);
      var e := Delete(d, init.fs, paths[|paths| - 1]);
      Run(e.fs, init.failed + (if e.err.Some? then [paths[|paths| - 1]] else []), init.stdout + e.stdout)
  }

  /** The dry run leaves the filesystem alone, never fails, and prints one
      announcement per path, in order. */
  lemma {:induction false} DryRunChangesNothing(fs: set<string>, paths: seq<string>)
    ensures DeleteAll(NopDeleter, fs, paths).fs == fs
    ensures DeleteAll(NopDeleter, fs, paths).failed == []
    ensures DeleteAll(NopDeleter, fs, paths).stdout == Announce(paths)
    decreases |paths|
  {
    if |paths| != 0 {
      DryRunChangesNothing(fs, paths[..|paths| - 1]);
      AnnounceSnoc(paths[..|paths| - 1], paths[|paths| - 1]);
      assert paths == paths[..|paths| - 1] + [paths[|paths| - 1]];
    }
  }

  /** One announcement per path, in order. */
  function Announce(paths: seq<string>): string
  {
    if |paths| == 0 then "" else WouldBeRemoved(paths[0]) + Announce(paths[1..])
  }

  lemma {:induction false} AnnounceSnoc(paths: seq<string>, p: string)
    ensures Announce(paths + [p]) == Announce(paths) + WouldBeRemoved(p)
  {
    if |paths| == 0 {
      assert Announce([p]) == WouldBeRemoved(p) + Announce([]);
    } else {
      assert (paths + [p])[1..] == paths[1..] + [p];
      AnnounceSnoc(paths[1..], p);
    }
  }

  /** The real deleter removes exactly the given paths and prints
      nothing. */
  lemma {:induction false} RemovesExactly(fs: set<string>, paths: seq<string>)
    ensures DeleteAll(FileDeleter, fs, paths).fs == fs - set p | p in paths
    ensures DeleteAll(FileDeleter, fs, paths).stdout == ""
    decreases |paths|
  {
    if |paths| != 0 {
      var init := paths[..|paths| - 1];
      var last := paths[|paths| - 1];
      RemovesExactly(fs, init);
      assert paths == init + [last];
      assert (set p | p in paths) == (set p | p in init) + {last};
    }
  }

  /** The paths of `paths` that are not in `fs`, in order. */
  function Missing(fs: set<string>, paths: seq<string>): seq<string>
    decreases |paths|
  {
    if |paths| == 0 then []
    else Missing(fs, paths[..|paths| - 1]) + (if paths[|paths| - 1] in fs then [] else [paths[|paths| - 1]])
  }

  /** With each path given once, exactly the calls for paths that were
      never there fail, in call order. */
  lemma {:induction false} FailsOnMissing(fs: set<string>, paths: seq<string>)
    requires forall i, j :: 0 <= i < j < |paths| ==> paths[i] != paths[j]
    ensures DeleteAll(FileDeleter, fs, paths).failed == Missing(fs, paths)
    decreases |paths|
  {
    if |paths| != 0 {
      var init := paths[..|paths| - 1];
      var last := paths[|paths| - 1];
      FailsOnMissing(fs, init);
      RemovesExactly(fs, init);
      assert last !in (set p | p in init) by {
        forall k | 0 <= k < |init| ensures init[k] != last {
          assert init[k] == paths[k];
        }
      }
    }
  }
}

=== FILE: deletion.dfy ===
/** What the prototypes hand to the deleter outside the interactive
    prompt: force deletion of every duplicate, the print-only filter of the
    root prototype, and the choice between the three modes. The
    deleter's outcome for a path is an oracle `ok(path)`: true when the
    removal succeeded. */
module Deletion {
  import opened Base
  import opened Records

  /** Hand each file to the deleter in order and keep those it removed. */
  function DeleteEach(fs: seq<FileHash>, ok: string -> bool): (r: seq<FileHash>)
    ensures |r| <= |fs|
    ensures forall x :: x in r <==> x in fs && ok(x.Path())
  {
    if |fs| == 0 then []
    else
      assert forall g :: g in fs <==> g == fs[0] || g in fs[1..];
      (if ok(fs[0].Path()) then [fs[0]] else []) + DeleteEach(fs[1..], ok)
  }

  /** The removed files keep their order: deletion distributes over
      concatenation. */
  lemma {:induction false} DeleteEachAppend(a: seq<FileHash>, b: seq<FileHash>, ok: string -> bool)
    ensures DeleteEach(a + b, ok) == DeleteEach(a, ok) + DeleteEach(b, ok)
  {
    if |a| == 0 {
      assert a + b == b;
    } else {
      assert (a + b)[1..] == a[1..] + b;
      DeleteEachAppend(a[1..], b, ok);
    }
  }

  /** One more file handed to the deleter. */
  lemma DeleteEachSnoc(ds: seq<FileHash>, j: nat, ok: string -> bool)
    requires j < |ds|
    ensures DeleteEach(ds[..j + 1], ok) == DeleteEach(ds[..j], ok) + (if ok(ds[j].Path()) then [ds[j]] else [])
    ensures Paths(ds[..j + 1]) == Paths(ds[..j]) + [ds[j].Path()]
  {
    assert ds[..j + 1] == ds[..j] + [ds[j]];
    PathsAppend(ds[..j], [ds[j]]);
    DeleteEachAppend(ds[..j], [ds[j]], ok);
    assert DeleteEach([ds[j]], ok) == (if ok(ds[j].Path()) then [ds[j]] else []) + DeleteEach([], ok);
  }

  /** The inner loop of every force deletion: one group's duplicates
      handed to the deleter in order. */
  method DeleteGroup(ds: seq<FileHash>, ok: string -> bool) returns (deleted: seq<FileHash>, calls: seq<string>)
    ensures calls == Paths(ds)
    ensures deleted == DeleteEach(ds, ok)
  {
    deleted, calls := [], [];
    var j := 0;
    while j < |ds|
      invariant 0 <= j <= |ds|
      invariant calls == Paths(ds[..j])
      invariant deleted == DeleteEach(ds[..j], ok)
    {
      DeleteEachSnoc(ds, j, ok);
      var d := ds[j];
      calls := calls + [d.Path()];
      if ok(d.Path()) {
        deleted := deleted + [d];
      }
      j := j + 1;
    }
    assert ds[..j] == ds;
  }

  /** `ForceDelete` of the two later prototypes: the deleter is called on
      every duplicate of every group, group by group, never on an
      original; a failure is logged and the loop goes on; the result is
      the files actually removed, in call order. */
  method ForceDelete(gs: seq<DuplicateFile>, ok: string -> bool) returns (deleted: seq<FileHash>, calls: seq<string>)
    ensures calls == Paths(AllDuplicates(gs))
    ensures deleted == DeleteEach(AllDuplicates(gs), ok)
  {
    deleted, calls := [], [];
    var i := 0;
    while i < |gs|
      invariant 0 <= i <= |gs|
      invariant calls == Paths(AllDuplicates(gs[..i]))
      invariant deleted == DeleteEach(AllDuplicates(gs[..i]), ok)
    {
      var d, c := DeleteGroup(gs[i].duplicates, ok);
      AllDuplicatesSnoc(gs, i);
      PathsAppend(AllDuplicates(gs[..i]), gs[i].duplicates);
      DeleteEachAppend(AllDuplicates(gs[..i]), gs[i].duplicates, ok);
      deleted, calls := deleted + d, calls + c;
      i := i + 1;
    }
    assert gs[..i] == gs;
  }

  /** `ForceDelete` of the `files` prototype: the same calls, every
      error ignored, nothing returned. */
  method ForceDeleteIgnoringErrors(gs: seq<DuplicateFile>) returns (calls: seq<string>)
    ensures calls == Paths(AllDuplicates(gs))
  {
    calls := [];
    var i := 0;
    while i < |gs|
      invariant 0 <= i <= |gs|
      invariant calls == Paths(AllDuplicates(gs[..i]))
    {
      var _, c := DeleteGroup(gs[i].duplicates, _ => true);
      AllDuplicatesSnoc(gs, i);
      PathsAppend(AllDuplicates(gs[..i]), gs[i].duplicates);
      calls := calls + c;
      i := i + 1;
    }
    assert gs[..i] == gs;
  }

  /** `forceDelete` of the root prototype skips groups without
      duplicates before its inner loop; the skip changes nothing, so it
      makes exactly the calls of the other prototypes. */
  method ForceDeleteSkippingEmpty(gs: seq<DuplicateFile>) returns (calls: seq<string>)
    ensures calls == Paths(AllDuplicates(gs))
  {
    calls := [];
    var i := 0;
    while i < |gs|
      invariant 0 <= i <= |gs|
      invariant calls == Paths(AllDuplicates(gs[..i]))
    {
      AllDuplicatesSnoc(gs, i);
      if |gs[i].duplicates| != 0 {
        var _, c := DeleteGroup(gs[i].duplicates, _ => true);
        PathsAppend(AllDuplicates(gs[..i]), gs[i].duplicates);
        calls := calls + c;
      } else {
        assert AllDuplicates(gs[..i]) + gs[i].duplicates == AllDuplicates(gs[..i]);
      }
      i := i + 1;
    }
    assert gs[..i] == gs;
  }

  /** `printDuplicates` of the root prototype: only the groups that have
      at least one duplicate, in order. */
  function Printed(gs: seq<DuplicateFile>): (r: seq<DuplicateFile>)
    ensures |r| <= |gs|
    ensures forall g :: g in r <==> g in gs && |g.duplicates| > 0
  {
    if |gs| == 0 then []
    else
      assert forall g :: g in gs <==> g == gs[0] || g in gs[1..];
      (if |gs[0].duplicates| > 0 then [gs[0]] else []) + Printed(gs[1..])
  }

  lemma {:induction false} PrintedAppend(a: seq<DuplicateFile>, b: seq<DuplicateFile>)
    ensures Printed(a + b) == Printed(a) + Printed(b)
  {
    if |a| == 0 {
      assert a + b == b;
    } else {
      assert (a + b)[1..] == a[1..] + b;
      PrintedAppend(a[1..], b);
    }
  }

  /** Dropping the groups without duplicates loses no duplicate. */
  lemma {:induction false} PrintedKeepsDuplicates(gs: seq<DuplicateFile>)
    ensures AllDuplicates(Printed(gs)) == AllDuplicates(gs)
  {
    if |gs| != 0 {
      var rest := Printed(gs[1..]);
      PrintedKeepsDuplicates(gs[1..]);
      assert AllDuplicates(gs) == gs[0].duplicates + AllDuplicates(gs[1..]);
      if |gs[0].duplicates| > 0 {
        var p := [gs[0]] + rest;
        assert Printed(gs) == p;
        assert p[0] == gs[0] && p[1..] == rest;
        assert AllDuplicates(p) == gs[0].duplicates + AllDuplicates(rest);
      } else {
        assert Printed(gs) == rest;
        assert gs[0].duplicates == [];
      }
    }
  }

  /** What `main` does with the groups. */
  datatype Mode = Force | Interactive | PrintOnly

  /** Force wins over interactive, which wins over printing. */
  function SelectMode(isForce: bool, isInteractive: bool): (m: Mode)
    ensures m == Force <==> isForce
    ensures m == Interactive <==> !isForce && isInteractive
    ensures m == PrintOnly <==> !isForce && !isInteractive
  {
    if isForce then Force else if isInteractive then Interactive else PrintOnly
  }
}

=== FILE: hashing.dfy ===
/** Digesting walked files. The content digest itself is an oracle
    `digest(path)`: `Some(hex)` when the file could be opened and read,
    `None` when it could not (the failure is logged and the file dropped or
    left unhashed). Three strategies appear across the prototypes:
    hashing only files whose size is shared (`HashSelected`), the same but
    in place with `""` for unhashed files (`HashInPlace`), and hashing
    every walked file (`HashEach`). */
module Hashing {
  import opened Base
  import opened Records

  /** Number of files of size `s`. */
  function CountSize(fs: seq<FileData>, s: nat): (n: nat)
    ensures n <= |fs|
  {
    if |fs| == 0 then 0 else (if fs[0].size == s then 1 else 0) + CountSize(fs[1..], s)
  }

  lemma {:induction false} CountSizeSnoc(fs: seq<FileData>, f: FileData, s: nat)
    ensures CountSize(fs + [f], s) == CountSize(fs, s) + (if f.size == s then 1 else 0)
  {
    if |fs| != 0 {
      assert (fs + [f])[1..] == fs[1..] + [f];
      CountSizeSnoc(fs[1..], f, s);
    }
  }

  /** A Go map read: a missing key reads as zero. */
  function Lookup(m: map<nat, nat>, s: nat): nat
  {
    if s in m then m[s] else 0
  }

  /** The size cache filled during the walk: one increment per recorded
      file, a new key starting at one. Reading it gives the number of
      recorded files of each size, and it holds exactly the sizes seen. */
  function SizeCounts(fs: seq<FileData>): (m: map<nat, nat>)
    ensures forall s :: Lookup(m, s) == CountSize(fs, s)
    ensures forall s :: s in m <==> CountSize(fs, s) > 0
  {
    if |fs| == 0 then map[]
    else
      var init := fs[..|fs| - 1];
      var f := fs[|fs| - 1];
      var m := SizeCounts(init);
      assert fs == init + [f];
      assert forall s :: CountSize(fs, s) == CountSize(init, s) + (if f.size == s then 1 else 0) by {
        forall s { CountSizeSnoc(init, f, s); }
      }
      if f.size in m then m[f.size := m[f.size] + 1] else m[f.size := 1]
  }

  /** `hashFiles`: a file is digested only when the size cache reports more
      than one file of its size; a file that cannot be read is dropped. */
  function HashSelected(fs: seq<FileData>, sizes: map<nat, nat>, digest: string -> Option<string>): (r: seq<FileHash>)
    ensures |r| <= |fs|
    ensures forall x :: x in r <==>
              x.data in fs && Lookup(sizes, x.data.size) > 1 && digest(x.data.path) == Some(x.hash)
  {
    if |fs| == 0 then []
    else
      var f := fs[0];
      var rest := HashSelected(fs[1..], sizes, digest);
      assert forall g :: g in fs <==> g == f || g in fs[1..];
      if Lookup(sizes, f.size) > 1 && digest(f.path).Some?
      then [FileHash(f, digest(f.path).value)] + rest
      else rest
  }

  /** Selection keeps the walk order: it distributes over concatenation. */
  lemma {:induction false} HashSelectedAppend(a: seq<FileData>, b: seq<FileData>, sizes: map<nat, nat>,
                                              digest: string -> Option<string>)
    ensures HashSelected(a + b, sizes, digest) == HashSelected(a, sizes, digest) + HashSelected(b, sizes, digest)
  {
    if |a| == 0 {
      assert a + b == b;
    } else {
      assert (a + b)[1..] == a[1..] + b;
      HashSelectedAppend(a[1..], b, sizes, digest);
    }
  }

  /** `CollectFiles` of the `muka` prototype, hashing loop: every
      walked file is kept, in order; its digest is filled in when at least
      two files share its size and it can be read, and stays `""`
      otherwise. */
  function HashInPlace(fs: seq<FileData>, sizes: map<nat, nat>, digest: string -> Option<string>): (r: seq<FileHash>)
    ensures |r| == |fs|
    ensures forall i :: 0 <= i < |fs| ==> r[i].data == fs[i]
    ensures forall i :: 0 <= i < |fs| ==> r[i].hash != "" ==> digest(fs[i].path) == Some(r[i].hash)
    ensures forall i :: 0 <= i < |fs| ==>
              (Lookup(sizes, fs[i].size) >= 2 && digest(fs[i].path).Some? ==> r[i].hash == digest(fs[i].path).value)
    ensures forall i :: 0 <= i < |fs| ==> Lookup(sizes, fs[i].size) < 2 ==> r[i].hash == ""
  {
    if |fs| == 0 then []
    else
      var f := fs[0];
      var h := if Lookup(sizes, f.size) >= 2 && digest(f.path).Some? then digest(f.path).value else "";
      [FileHash(f, h)] + HashInPlace(fs[1..], sizes, digest)
  }

  /** The hashed entries of a list, in order. */
  function KeepHashed(fs: seq<FileHash>): (r: seq<FileHash>)
    ensures forall x :: x in r <==> x in fs && x.hash != ""
  {
    if |fs| == 0 then []
    else
      assert forall g :: g in fs <==> g == fs[0] || g in fs[1..];
      (if fs[0].hash != "" then [fs[0]] else []) + KeepHashed(fs[1..])
  }

  /** The `muka` prototype's in-place hashing and the `pkg/muka` one's
      selective hashing agree: unless a readable
      file's digest is the empty string, dropping the unhashed entries of
      the in-place list gives exactly the selective list. */
  lemma {:induction false} InPlaceAgreesWithSelected(fs: seq<FileData>, sizes: map<nat, nat>,
                                                     digest: string -> Option<string>)
    requires forall i :: 0 <= i < |fs| ==> digest(fs[i].path) != Some("")
    ensures KeepHashed(HashInPlace(fs, sizes, digest)) == HashSelected(fs, sizes, digest)
  {
    if |fs| != 0 {
      var r := HashInPlace(fs, sizes, digest);
      assert r[1..] == HashInPlace(fs[1..], sizes, digest);
      InPlaceAgreesWithSelected(fs[1..], sizes, digest);
    }
  }

  /** `CollectFiles` of the two earlier prototypes, hashing step: every
      walked file is digested; one that cannot be read is reported and
      skipped. */
  function HashEach(fs: seq<FileData>, digest: string -> Option<string>): (r: seq<FileHash>)
    ensures |r| <= |fs|
    ensures forall x :: x in r <==> x.data in fs && digest(x.data.path) == Some(x.hash)
  {
    if |fs| == 0 then []
    else
      var f := fs[0];
      assert forall g :: g in fs <==> g == f || g in fs[1..];
      (if digest(f.path).Some? then [FileHash(f, digest(f.path).value)] else [])
      + HashEach(fs[1..], digest)
  }

  /** The files whose size the cache reports more than once, in order. */
  function SharedSize(fs: seq<FileData>, sizes: map<nat, nat>): (r: seq<FileData>)
    ensures forall f :: f in r <==> f in fs && Lookup(sizes, f.size) > 1
  {
    if |fs| == 0 then []
    else
      assert forall g :: g in fs <==> g == fs[0] || g in fs[1..];
      (if Lookup(sizes, fs[0].size) > 1 then [fs[0]] else []) + SharedSize(fs[1..], sizes)
  }

  /** Selective hashing is the earlier prototypes' hash-everything step
      applied to the files of shared size. */
  lemma {:induction false} SelectedIsSharedThenEach(fs: seq<FileData>, sizes: map<nat, nat>,
                                                    digest: string -> Option<string>)
    ensures HashSelected(fs, sizes, digest) == HashEach(SharedSize(fs, sizes), digest)
  {
    if |fs| != 0 {
      var head := if Lookup(sizes, fs[0].size) > 1 then [fs[0]] else [];
      SelectedIsSharedThenEach(fs[1..], sizes, digest);
      HashEachAppend(head, SharedSize(fs[1..], sizes), digest);
      if head != [] {
        assert head[1..] == [];
      }
    }
  }

  lemma {:induction false} HashEachAppend(a: seq<FileData>, b: seq<FileData>, digest: string -> Option<string>)
    ensures HashEach(a + b, digest) == HashEach(a, digest) + HashEach(b, digest)
  {
    if |a| == 0 {
      assert a + b == b;
    } else {
      assert (a + b)[1..] == a[1..] + b;
      HashEachAppend(a[1..], b, digest);
    }
  }

  /** With the walk's own size cache, no file of unique size is ever
      hashed: every selected file shares its size with another walked
      file. */
  lemma UniqueSizeNeverHashed(fs: seq<FileData>, digest: string -> Option<string>)
    ensures forall x :: x in HashSelected(fs, SizeCounts(fs), digest) ==> CountSize(fs, x.data.size) >= 2
  {
  }
}

=== FILE: patterns.dfy ===
/** `CompileSpaceSeparatedPatterns`: the exclusion patterns come as one
    string of space-separated expressions. The regular-expression compiler
    is a parameter `compile` returning a pattern or an error. */
module Patterns {
  import opened Base

  /** The compiled patterns and, if compilation stopped, the error. An
      empty string gives no pattern; otherwise every token between single
      spaces (empty tokens included) is compiled in order, and the first
      failure stops the loop, keeping the patterns compiled before it. */
  method CompileSpaceSeparatedPatterns<P, E>(s: string, compile: string -> Result<P, E>)
    returns (patterns: seq<P>, err: Option<E>)
    ensures s == "" ==> patterns == [] && err == None
    ensures var tokens := Split(s, ' ');
            && |patterns| <= |tokens|
            && (forall i :: 0 <= i < |patterns| ==> compile(tokens[i]) == Ok(patterns[i]))
            && (err == None && s != "" ==> |patterns| == |tokens|)
            && (err.Some? ==> s != "" && |patterns| < |tokens| && compile(tokens[|patterns|]) == Err(err.value))
  {
    patterns, err := [], None;
    if |s| == 0 {
      return;
    }
    var tokens := Split(s, ' ');
    var i := 0;
    while i < |tokens|
      invariant 0 <= i <= |tokens|
      invariant |patterns| == i
      invariant forall k :: 0 <= k < i ==> compile(tokens[k]) == Ok(patterns[k])
    {
      var c := compile(tokens[i]);
      if c.Err? {
        err := Some(c.error);
        return;
      }
      patterns := patterns + [c.value];
      i := i + 1;
    }
  }

  /** "a" and "a b" split into one and two tokens. */
  lemma SplitExamples()
    ensures Split("a", ' ') == ["a"]
    ensures Split("a b", ' ') == ["a", "b"]
  {
  }
}

=== FILE: pipeline.dfy ===
/** The prototypes' pipelines, end to end: walk, hash, group. */
module Pipeline {
  import opened Base
  import opened Records
  import opened FileWalk
  import opened Hashing
  import opened DuplicateCache

  /** The `pkg/muka` prototype's collection result: every walked file, and
      those it hashed. */
  datatype Directory = Directory(encountered: seq<FileData>, hashed: seq<FileHash>)

  /** `CollectFiles` of the `pkg/muka` prototype: walk with exclusions, count
      sizes along the way, then hash the files whose size is shared. The
      walk fails exactly at a reached unreadable entry; otherwise the
      encountered files are the reached, non-excluded files in walk
      order, and every hashed file was encountered, shares its size with
      another encountered file, and carries its own digest. */
  function CollectFiles(root: Node, rootPath: string, opts: Options, digest: string -> Option<string>)
    : (r: Result<Directory, WalkError>)
    ensures var ls := Leaves(root, rootPath, []);
            && (r.Err? <==> FirstFault(ls, opts).Some?)
            && (r.Err? ==> r.error == WalkError(FirstFault(ls, opts).value))
            && (r.Ok? ==> r.value.encountered == Recorded(ls, opts))
    ensures r.Ok? ==> forall x :: x in r.value.hashed ==>
              && x.data in r.value.encountered
              && CountSize(r.value.encountered, x.data.size) >= 2
              && digest(x.data.path) == Some(x.hash)
    ensures r.Ok? ==> forall f ::
              (f in r.value.encountered && CountSize(r.value.encountered, f.size) >= 2 && digest(f.path).Some?)
              ==> FileHash(f, digest(f.path).value) in r.value.hashed
  {
    WalkFromRoot(root, rootPath, opts);
    match Walk(root, rootPath, opts)
    case Err(e) => Err(e)
    case Ok(fs) => Ok(Directory(fs, HashSelected(fs, SizeCounts(fs), digest)))
  }

  /** `FindDuplicateFiles` of the `pkg/muka` prototype: a hashed file is
      reported exactly when its digest is not empty and another hashed
      file shares it, each reported group holds, in input order, every
      file with its digest, and no digest has two groups. */
  function FindDuplicateFiles(d: Directory): (r: seq<DuplicateFile>)
    ensures forall f :: f in Members(r) <==>
              f in d.hashed && f.hash != "" && |WithHash(d.hashed, f.hash)| >= 2
    ensures forall g :: g in r ==> GroupMembers(g) == WithHash(d.hashed, g.original.hash) && |g.duplicates| >= 1
    ensures forall i, j :: 0 <= i < j < |r| ==> r[i].original.hash != r[j].original.hash
  {
    DuplicatesShareDigests(d.hashed);
    FilterReportedDistinct(Build(d.hashed).groups);
    GetDuplicates(Build(d.hashed))
  }

  /** A reported group holds every file with its digest. */
  lemma ReportedGroup(gs: seq<DuplicateFile>, fs: seq<FileHash>, g: DuplicateFile)
    requires forall i :: 0 <= i < |gs| ==> GroupMembers(gs[i]) == WithHash(fs, gs[i].original.hash)
    requires g in FilterReported(gs)
    ensures GroupMembers(g) == WithHash(fs, g.original.hash) && |g.duplicates| >= 1 && g.original.hash != ""
  {
    var i :| 0 <= i < |gs| && gs[i] == g;
  }

  /** Every file of a reported group shares a non-empty digest with
      another file. */
  lemma ReportedFileShares(gs: seq<DuplicateFile>, fs: seq<FileHash>, g: DuplicateFile, f: FileHash)
    requires forall i :: 0 <= i < |gs| ==> GroupMembers(gs[i]) == WithHash(fs, gs[i].original.hash)
    requires g in gs && Reported(g) && f in GroupMembers(g)
    ensures f in fs && f.hash != "" && |WithHash(fs, f.hash)| >= 2
  {
    var j :| 0 <= j < |gs| && gs[j] == g;
    assert f in WithHash(fs, g.original.hash);
  }

  /** Every file sharing a non-empty digest is reported. */
  lemma SharedFileReported(gs: seq<DuplicateFile>, fs: seq<FileHash>, f: FileHash)
    requires forall i :: 0 <= i < |gs| ==> GroupMembers(gs[i]) == WithHash(fs, gs[i].original.hash)
    requires forall k :: 0 <= k < |fs| ==> exists i :: 0 <= i < |gs| && gs[i].original.hash == fs[k].hash
    requires f in fs && f.hash != "" && |WithHash(fs, f.hash)| >= 2
    ensures f in Members(FilterReported(gs))
  {
    var k :| 0 <= k < |fs| && fs[k] == f;
    var i :| 0 <= i < |gs| && gs[i].original.hash == fs[k].hash;
    SharedGroupReported(gs[i], fs, f);
    InFilteredMembers(gs, i, f);
  }

  /** The group keyed by a shared digest is reported and holds the file. */
  lemma SharedGroupReported(g: DuplicateFile, fs: seq<FileHash>, f: FileHash)
    requires GroupMembers(g) == WithHash(fs, g.original.hash)
    requires f in fs && f.hash == g.original.hash && f.hash != "" && |WithHash(fs, f.hash)| >= 2
    ensures Reported(g) && f in GroupMembers(g)
  {
    assert |GroupMembers(g)| == 1 + |g.duplicates|;
  }

  /** The filtering cache's output, stated without the cache: a file is
      reported exactly when it was added, its digest is not empty and at
      least one other added file shares the digest; each reported group
      holds, in input order, every file with its digest. */
  lemma DuplicatesShareDigests(fs: seq<FileHash>)
    ensures forall f :: f in Members(GetDuplicates(Build(fs))) <==>
              f in fs && f.hash != "" && |WithHash(fs, f.hash)| >= 2
    ensures forall g :: g in GetDuplicates(Build(fs)) ==>
              GroupMembers(g) == WithHash(fs, g.original.hash) && |g.duplicates| >= 1
  {
    var gs := Build(fs).groups;
    BuildGroupsByHash(fs);
    BuildCoversHashes(fs);
    forall g | g in GetDuplicates(Build(fs))
      ensures GroupMembers(g) == WithHash(fs, g.original.hash) && |g.duplicates| >= 1
    {
      ReportedGroup(gs, fs, g);
    }
    forall f
      ensures f in Members(GetDuplicates(Build(fs))) <==> f in fs && f.hash != "" && |WithHash(fs, f.hash)| >= 2
    {
      var r := GetDuplicates(Build(fs));
      InMembers(r, f);
      if f in Members(r) {
        var i :| 0 <= i < |r| && f in GroupMembers(r[i]);
        assert r[i] in r;
        ReportedFileShares(gs, fs, r[i], f);
      }
      if f in fs && f.hash != "" && |WithHash(fs, f.hash)| >= 2 {
        SharedFileReported(gs, fs, f);
      }
    }
  }

  /** `CollectFiles` of the `muka` prototype: the same walk, then
      every walked file kept, hashed in place when its size is shared. */
  function CollectFilesInPlace(root: Node, rootPath: string, opts: Options, digest: string -> Option<string>)
    : (r: Result<seq<FileHash>, WalkError>)
    ensures var ls := Leaves(root, rootPath, []);
            && (r.Err? <==> FirstFault(ls, opts).Some?)
            && (r.Ok? ==> |r.value| == |Recorded(ls, opts)|)
            && (r.Ok? ==> forall i :: 0 <= i < |r.value| ==> r.value[i].data == Recorded(ls, opts)[i])
            && (r.Ok? ==> forall i :: 0 <= i < |r.value| ==>
                  CountSize(Recorded(ls, opts), r.value[i].data.size) < 2 ==> r.value[i].hash == "")
    ensures var ls := Leaves(root, rootPath, []);
            r.Ok? ==> forall i :: 0 <= i < |r.value| ==>
              && (r.value[i].hash != "" ==> digest(r.value[i].data.path) == Some(r.value[i].hash))
              && (CountSize(Recorded(ls, opts), r.value[i].data.size) >= 2 && digest(r.value[i].data.path).Some?
                  ==> r.value[i].hash == digest(r.value[i].data.path).value)
    ensures r.Err? ==> r.error == WalkError(FirstFault(Leaves(root, rootPath, []), opts).value)
  {
    WalkFromRoot(root, rootPath, opts);
    match Walk(root, rootPath, opts)
    case Err(e) => Err(e)
    case Ok(fs) => Ok(HashInPlace(fs, SizeCounts(fs), digest))
  }

  /** Dropping the unhashed entries of the `muka` prototype's list gives
      the `pkg/muka` prototype's hashed list, unless some readable file
      digests to the empty string. */
  lemma InPlaceMatchesPkgMuka(root: Node, rootPath: string, opts: Options, digest: string -> Option<string>)
    requires forall p :: digest(p) != Some("")
    ensures CollectFilesInPlace(root, rootPath, opts, digest).Ok? <==> CollectFiles(root, rootPath, opts, digest).Ok?
    ensures CollectFilesInPlace(root, rootPath, opts, digest).Ok? ==>
              KeepHashed(CollectFilesInPlace(root, rootPath, opts, digest).value)
              == CollectFiles(root, rootPath, opts, digest).value.hashed
  {
    match Walk(root, rootPath, opts)
    case Err(_) =>
    case Ok(fs) => InPlaceAgreesWithSelected(fs, SizeCounts(fs), digest);
  }

  /** `CollectFiles` of the two earlier prototypes: walk without
      exclusions and hash every file, dropping those that cannot be read.
      A tree without unreadable entries is always walked to the end. */
  function CollectHashedFiles(root: Node, rootPath: string, digest: string -> Option<string>)
    : (r: Result<seq<FileHash>, WalkError>)
    ensures Readable(root) ==> r == Ok(HashEach(AllFiles(root, rootPath), digest))
    ensures r.Ok? ==> forall x :: x in r.value ==>
              x.data in Recorded(Leaves(root, rootPath, []), NoExclusions) && digest(x.data.path) == Some(x.hash)
    ensures r.Err? <==> FirstFault(Leaves(root, rootPath, []), NoExclusions).Some?
    ensures r.Err? ==> r.error == WalkError(FirstFault(Leaves(root, rootPath, []), NoExclusions).value)
    ensures r.Ok? ==> r.value == HashEach(Recorded(Leaves(root, rootPath, []), NoExclusions), digest)
  {
    WalkFromRoot(root, rootPath, NoExclusions);
    assert Readable(root) ==> Walk(root, rootPath, NoExclusions) == Ok(AllFiles(root, rootPath)) by {
      if Readable(root) { WalkWithoutExclusions(root, rootPath); }
    }
    match Walk(root, rootPath, NoExclusions)
    case Err(e) => Err(e)
    case Ok(fs) => Ok(HashEach(fs, digest))
  }

  /** `FindDuplicateFiles` of the two earlier prototypes: every group,
      exactly one per distinct digest and ordered by each digest's first
      appearance, each holding every file with its digest in input order. A single file makes one group with no duplicate. */
  function FindDuplicateFilesUnfiltered(fs: seq<FileHash>): (r: seq<DuplicateFile>)
    ensures |r| == |HashesOf(fs)|
    ensures forall i :: 0 <= i < |r| ==> GroupMembers(r[i]) == WithHash(fs, r[i].original.hash)
    ensures |fs| == 1 ==> r == [DuplicateFile(fs[0], [])]
    ensures FirstSeenOrder(r, fs)
    ensures forall h :: h in HashesOf(fs) ==> exists i :: 0 <= i < |r| && r[i].original.hash == h
  {
    UnfilteredGroups(fs);
    AllGroups(Build(fs))
  }

  lemma UnfilteredGroups(fs: seq<FileHash>)
    ensures |Build(fs).groups| == |HashesOf(fs)|
    ensures forall i :: 0 <= i < |Build(fs).groups| ==>
              GroupMembers(Build(fs).groups[i]) == WithHash(fs, Build(fs).groups[i].original.hash)
    ensures |fs| == 1 ==> Build(fs).groups == [DuplicateFile(fs[0], [])]
    ensures FirstSeenOrder(Build(fs).groups, fs)
    ensures forall h :: h in HashesOf(fs) ==> exists i :: 0 <= i < |Build(fs).groups| && Build(fs).groups[i].original.hash == h
  {
    BuildCountsDistinctHashes(fs);
    BuildGroupsByHash(fs);
    BuildKeys(fs);
    var gs := Build(fs).groups;
    forall h | h in HashesOf(fs)
      ensures exists i :: 0 <= i < |gs| && gs[i].original.hash == h
    {
      OriginalHashesFind(gs, h);
      var i := FindDuplicateFile(gs, h);
      assert 0 <= i < |gs| && gs[i].original.hash == h;
    }
    if |fs| == 1 {
      assert fs[..0] == [];
      AddUnseen(NewCache(), fs[0]);
    }
  }

  /** The duplicate count never exceeds the number of walked files. */
  lemma FewerDuplicatesThanFiles(d: Directory)
    requires |d.hashed| <= |d.encountered|
    ensures |AllDuplicates(FindDuplicateFiles(d))| <= |d.encountered|
  {
    var gs := Build(d.hashed).groups;
    BuildCountsAdds(d.hashed);
    FilterReportedCount(gs);
    DuplicateCountIsLength(FindDuplicateFiles(d));
  }

  /** Filtering groups never adds duplicates. */
  lemma {:induction false} FilterReportedCount(gs: seq<DuplicateFile>)
    ensures DuplicateCount(FilterReported(gs)) <= DuplicateCount(gs)
  {
    if |gs| != 0 {
      FilterReportedCount(gs[1..]);
      var rest := FilterReported(gs[1..]);
      if Reported(gs[0]) {
        assert FilterReported(gs) == [gs[0]] + rest;
        assert ([gs[0]] + rest)[1..] == rest;
      } else {
        assert FilterReported(gs) == rest;
      }
    }
  }
}

=== FILE: prompt.dfy ===
/** The interactive prompt for one duplicate group. Each round writes the
    group's rendering and the question, reads one line with
    `ReadString('\n')`, and dispatches on the line's first byte: `d`
    removes the duplicates, `o` the original, `s` skips, a lone newline or
    any other byte asks again. The input stream is a string; the deleter's
    outcome is an oracle `ok(path)`. */
module Prompt {
  import opened Base
  import opened Records
  import opened Deletion

  /** One `ReadString('\n')`: the data up to and including the first
      newline, or, when there is none, everything left together with the
      end-of-input error. */
  datatype Read = Read(line: string, rest: string, eof: bool)

  /** A complete line: one newline, at its end. */
  predicate Line(l: string)
  {
    |l| > 0 && l[|l| - 1] == '\n' && '\n' !in l[..|l| - 1]
  }

  function ReadLine(input: string): (r: Read)
    ensures r.line + r.rest == input
    ensures !r.eof ==> Line(r.line)
    ensures r.eof <==> '\n' !in input
    ensures r.eof ==> r.line == input && r.rest == []
    decreases |input|
  {
    if |input| == 0 then Read("", "", true)
    else if input[0] == '\n' then Read("\n", input[1..], false)
    else
      var r := ReadLine(input[1..]);
      assert input == [input[0]] + input[1..];
      assert r.eof ==> '\n' !in input by {
        if r.eof {
          forall k | 0 <= k < |input| ensures input[k] != '\n' {
            if k > 0 { assert input[k] == input[1..][k - 1]; }
          }
        }
      }
      assert !r.eof ==> '\n' in input by {
        if !r.eof {
          assert r.line[|r.line| - 1] in input[1..];
        }
      }
      var line := [input[0]] + r.line;
      assert !r.eof ==> line[..|line| - 1] == [input[0]] + r.line[..|r.line| - 1];
      Read(line, r.rest, r.eof)
  }

  /** A complete line always reads as itself, whatever follows it. */
  lemma {:induction false} ReadLineOfLine(l: string, rest: string)
    requires Line(l)
    ensures ReadLine(l + rest) == Read(l, rest, false)
    decreases |l|
  {
    if |l| == 1 {
      assert (l + rest)[0] == '\n';
      assert (l + rest)[1..] == rest;
    } else {
      assert l[0] in l[..|l| - 1];
      assert (l + rest)[0] == l[0] != '\n';
      assert (l + rest)[1..] == l[1..] + rest;
      assert l[1..][..|l| - 2] == l[..|l| - 1][1..];
      ReadLineOfLine(l[1..], rest);
      assert [l[0]] + l[1..] == l;
    }
  }

  // ---------------------------------------------------------------------
  // The two later prototypes: read errors end the prompt.

  datatype PromptError = ReadFailed | DeleteFailed(path: string)

  /** The removed files, the error, the paths handed to the deleter in
      order, and how many times the group and the question were written. */
  datatype Outcome = Outcome(deleted: seq<FileHash>, err: Option<PromptError>, calls: seq<string>, shown: nat)

  function AskedAgain(o: Outcome): (r: Outcome)
    ensures r.shown == o.shown + 1
  {
    o.(shown := o.shown + 1)
  }

  /** `PromptToDelete` of the two later prototypes. */
  function PromptToDelete(dup: DuplicateFile, input: string, ok: string -> bool): (o: Outcome)
    ensures o.shown >= 1
    ensures o.calls == [] || o.calls == Paths(dup.duplicates) || o.calls == [dup.original.Path()]
    ensures o.err.Some? ==> o.deleted == []
    ensures o.err == Some(ReadFailed) ==> o.calls == []
    ensures forall x :: x in o.deleted ==> ok(x.Path()) && (x == dup.original || x in dup.duplicates)
    ensures '\n' !in input ==> o == Outcome([], Some(ReadFailed), [], 1)
    decreases |input|
  {
    var r := ReadLine(input);
    if r.eof then Outcome([], Some(ReadFailed), [], 1)
    else if r.line == "\n" then AskedAgain(PromptToDelete(dup, r.rest, ok))
    else
      match r.line[0]
      case 'd' => Outcome(DeleteEach(dup.duplicates, ok), None, Paths(dup.duplicates), 1)
      case 'o' =>
        var p := dup.original.Path();
        if ok(p) then Outcome([dup.original], None, [p], 1)
        else Outcome([], Some(DeleteFailed(p)), [p], 1)
      case 's' => Outcome([], None, [], 1)
      case _ => AskedAgain(PromptToDelete(dup, r.rest, ok))
  }

  /** A line that asks again: a lone newline or any other first byte. */
  predicate NoiseLine(l: string)
  {
    Line(l) && l[0] !in "dos"
  }

  function Concat(ls: seq<string>): string
  {
    if |ls| == 0 then "" else ls[0] + Concat(ls[1..])
  }

  lemma ConcatCons(ls: seq<string>, rest: string)
    requires |ls| > 0
    ensures Concat(ls) + rest == ls[0] + (Concat(ls[1..]) + rest)
  {
  }

  /** One noise line costs one more round and nothing else. */
  lemma NoiseLineAsksAgain(dup: DuplicateFile, l: string, rest: string, ok: string -> bool)
    requires NoiseLine(l)
    ensures PromptToDelete(dup, l + rest, ok) == AskedAgain(PromptToDelete(dup, rest, ok))
  {
    ReadLineOfLine(l, rest);
  }

  /** Noise lines delete nothing: each only asks once more. */
  lemma {:induction false} NoiseSkipped(dup: DuplicateFile, ls: seq<string>, rest: string, ok: string -> bool)
    requires forall i :: 0 <= i < |ls| ==> NoiseLine(ls[i])
    ensures var o := PromptToDelete(dup, rest, ok);
            PromptToDelete(dup, Concat(ls) + rest, ok) == o.(shown := o.shown + |ls|)
  {
    if |ls| == 0 {
      assert Concat(ls) + rest == rest;
    } else {
      var tail := Concat(ls[1..]) + rest;
      ConcatCons(ls, rest);
      NoiseLineAsksAgain(dup, ls[0], tail, ok);
      NoiseSkipped(dup, ls[1..], rest, ok);
    }
  }

  /** The first `d`, `o` or `s` line settles the prompt, whatever follows:
      `d` hands every duplicate and never the original to the deleter and
      reports those removed; `o` hands only the original and reports it,
      or the deleter's failure; `s` touches nothing. */
  lemma DecisiveLine(dup: DuplicateFile, l: string, rest: string, ok: string -> bool)
    requires Line(l) && l[0] in "dos"
    ensures var o := PromptToDelete(dup, l + rest, ok);
            var p := dup.original.Path();
            && (l[0] == 'd' ==> o == Outcome(DeleteEach(dup.duplicates, ok), None, Paths(dup.duplicates), 1))
            && (l[0] == 'o' && ok(p) ==> o == Outcome([dup.original], None, [p], 1))
            && (l[0] == 'o' && !ok(p) ==> o == Outcome([], Some(DeleteFailed(p)), [p], 1))
            && (l[0] == 's' ==> o == Outcome([], None, [], 1))
  {
    ReadLineOfLine(l, rest);
  }

  /** Input that runs out before a decisive line is a read error, after one
      round per noise line and one for the failed read. */
  lemma NoiseThenEndFails(dup: DuplicateFile, ls: seq<string>, ok: string -> bool)
    requires forall i :: 0 <= i < |ls| ==> NoiseLine(ls[i])
    ensures PromptToDelete(dup, Concat(ls), ok) == Outcome([], Some(ReadFailed), [], |ls| + 1)
  {
    NoiseSkipped(dup, ls, "", ok);
    assert Concat(ls) + "" == Concat(ls);
  }

  // ---------------------------------------------------------------------
  // The two earlier prototypes: read errors ignored, nothing returned.

  /** The paths handed to the deleter and the rounds written, or a crash:
      an empty read leaves no first byte to index. */
  datatype Answer = Answered(calls: seq<string>, shown: nat) | Crashed(shown: nat)

  function AskedAgainIgnoring(a: Answer): (r: Answer)
    ensures r.shown == a.shown + 1
    ensures r.Answered? <==> a.Answered?
  {
    match a
    case Answered(calls, shown) => Answered(calls, shown + 1)
    case Crashed(shown) => Crashed(shown + 1)
  }

  /** `PromptToDelete` of the `files` prototype: a line cut short
      by the end of input is still dispatched on its first byte. */
  function PromptIgnoringErrors(dup: DuplicateFile, input: string): (a: Answer)
    ensures a.shown >= 1
    ensures a.Answered? ==> a.calls == [] || a.calls == Paths(dup.duplicates) || a.calls == [dup.original.Path()]
    ensures input == "" ==> a == Crashed(1)
    decreases |input|
  {
    var r := ReadLine(input);
    if r.line == "\n" then AskedAgainIgnoring(PromptIgnoringErrors(dup, r.rest))
    else if r.line == "" then Crashed(1)
    else
      match r.line[0]
      case 'd' => Answered(Paths(dup.duplicates), 1)
      case 'o' => Answered([dup.original.Path()], 1)
      case 's' => Answered([], 1)
      case _ => AskedAgainIgnoring(PromptIgnoringErrors(dup, r.rest))
  }

  /** Whenever the later prompt does not fail on a read, the earlier one
      makes the same deleter calls after the same number of rounds. */
  lemma {:induction false} AgreesWhenReadsSucceed(dup: DuplicateFile, input: string, ok: string -> bool)
    requires PromptToDelete(dup, input, ok).err != Some(ReadFailed)
    ensures PromptIgnoringErrors(dup, input)
            == Answered(PromptToDelete(dup, input, ok).calls, PromptToDelete(dup, input, ok).shown)
    decreases |input|
  {
    var r := ReadLine(input);
    if r.line == "\n" || (r.line != "" && r.line[0] !in "dos") {
      AgreesWhenReadsSucceed(dup, r.rest, ok);
    }
  }

  /** Complete noise lines and then the end of input: the earlier prompt
      reads an empty line and crashes. */
  lemma {:induction false} NoiseThenEndCrashes(dup: DuplicateFile, ls: seq<string>)
    requires forall i :: 0 <= i < |ls| ==> NoiseLine(ls[i])
    ensures PromptIgnoringErrors(dup, Concat(ls)) == Crashed(|ls| + 1)
  {
    if |ls| != 0 {
      ConcatCons(ls, "");
      assert Concat(ls[1..]) + "" == Concat(ls[1..]);
      ReadLineOfLine(ls[0], Concat(ls[1..]));
      NoiseThenEndCrashes(dup, ls[1..]);
    }
  }

  /** Where the prototypes part: a last answer without its newline is
      obeyed by the earlier prompt and refused as a read error by the
      later one. */
  lemma UnterminatedAnswer(dup: DuplicateFile, l: string, ok: string -> bool)
    requires |l| > 0 && '\n' !in l && l[0] in "dos"
    ensures PromptToDelete(dup, l, ok) == Outcome([], Some(ReadFailed), [], 1)
    ensures PromptIgnoringErrors(dup, l)
            == Answered(if l[0] == 'd' then Paths(dup.duplicates)
                        else if l[0] == 'o' then [dup.original.Path()] else [], 1)
  {
    assert ReadLine(l).line == l;
  }

  /** `promptToDelete` of the root prototype: a group without
      duplicates is not shown and reads nothing. */
  function PromptGuarded(dup: DuplicateFile, input: string): (a: Answer)
    ensures |dup.duplicates| == 0 ==> a == Answered([], 0)
    ensures |dup.duplicates| > 0 ==> a.shown >= 1
  {
    if |dup.duplicates| == 0 then Answered([], 0) else PromptIgnoringErrors(dup, input)
  }

  /** In the later prompt too, a wrong answer or a blank line before `o`
      shows the group twice and then hands only the original to the
      deleter. */
  lemma LaterAsksTwiceBeforeOriginal(dup: DuplicateFile, ok: string -> bool)
    ensures PromptToDelete(dup, "x\no\n", ok).calls == [dup.original.Path()]
    ensures PromptToDelete(dup, "x\no\n", ok).shown == 2
    ensures PromptToDelete(dup, "\no\n", ok).calls == [dup.original.Path()]
    ensures PromptToDelete(dup, "\no\n", ok).shown == 2
  {
    assert Line("x\n") && Line("o\n") && Line("\n");
    assert "x\no\n" == "x\n" + "o\n";
    assert "\no\n" == "\n" + "o\n";
    ReadLineOfLine("x\n", "o\n");
    ReadLineOfLine("\n", "o\n");
    ReadLineOfLine("o\n", "");
    assert "o\n" + "" == "o\n";
  }

  /** The same inputs in the prompt that ignores read errors: the group is
      shown twice and then only the original is handed over. */
  lemma EarlierAsksTwiceBeforeOriginal(dup: DuplicateFile)
    ensures PromptIgnoringErrors(dup, "x\no\n") == Answered([dup.original.Path()], 2)
    ensures PromptIgnoringErrors(dup, "\no\n") == Answered([dup.original.Path()], 2)
  {
    assert Line("x\n") && Line("o\n") && Line("\n");
    assert "x\no\n" == "x\n" + "o\n";
    assert "\no\n" == "\n" + "o\n";
    ReadLineOfLine("x\n", "o\n");
    ReadLineOfLine("\n", "o\n");
    ReadLineOfLine("o\n", "");
    assert "o\n" + "" == "o\n";
  }

  /** A wrong answer or a blank line before `o` shows the group twice and
      then removes the original. */
  lemma AsksTwiceBeforeOriginal(dup: DuplicateFile)
    requires |dup.duplicates| > 0
    ensures PromptGuarded(dup, "x\no\n") == Answered([dup.original.Path()], 2)
    ensures PromptGuarded(dup, "\no\n") == Answered([dup.original.Path()], 2)
  {
    assert Line("x\n") && Line("o\n") && Line("\n");
    assert "x\no\n" == "x\n" + "o\n";
    assert "\no\n" == "\n" + "o\n";
    ReadLineOfLine("x\n", "o\n");
    ReadLineOfLine("\n", "o\n");
    ReadLineOfLine("o\n", "");
    assert "o\n" + "" == "o\n";
  }
}

=== FILE: records.dfy ===
/** The records every prototype passes along its pipeline: the walked file,
    the hashed file and the duplicate group, with the plain-text rendering
    of a group. */
module Records {
  import opened Base

  /** A regular file met by the walk: its absolute path and byte size. */
  datatype FileData = FileData(path: string, size: nat)

  /** A walked file with its content digest. The digest is `""` for a file
      that was never hashed (the `muka` prototype's in-place hashing). */
  datatype FileHash = FileHash(data: FileData, hash: string)
  {
    function Path(): string { data.path }
    function Size(): nat { data.size }
  }

  /** One group: the first file seen with a digest and every later file
      that shares it, in the order they were added. */
  datatype DuplicateFile = DuplicateFile(original: FileHash, duplicates: seq<FileHash>)

  /** The paths of some files, in order. */
  function Paths(fs: seq<FileHash>): (ps: seq<string>)
    ensures |ps| == |fs|
    ensures forall i :: 0 <= i < |fs| ==> ps[i] == fs[i].Path()
  {
    if |fs| == 0 then [] else [fs[0].Path()] + Paths(fs[1..])
  }

  lemma PathsAppend(a: seq<FileHash>, b: seq<FileHash>)
    ensures Paths(a + b) == Paths(a) + Paths(b)
  {
  }

  /** Every file of a group, original first. */
  function GroupMembers(g: DuplicateFile): seq<FileHash>
  {
    [g.original] + g.duplicates
  }

  /** Every file of every group, group by group. */
  function Members(gs: seq<DuplicateFile>): seq<FileHash>
  {
    if |gs| == 0 then [] else GroupMembers(gs[0]) + Members(gs[1..])
  }

  /** The duplicates of every group, group by group; originals left out. */
  function AllDuplicates(gs: seq<DuplicateFile>): seq<FileHash>
  {
    if |gs| == 0 then [] else gs[0].duplicates + AllDuplicates(gs[1..])
  }

  lemma {:induction false} AllDuplicatesAppend(a: seq<DuplicateFile>, b: seq<DuplicateFile>)
    ensures AllDuplicates(a + b) == AllDuplicates(a) + AllDuplicates(b)
  {
    if |a| == 0 {
      assert a + b == b;
    } else {
      assert (a + b)[1..] == a[1..] + b;
      AllDuplicatesAppend(a[1..], b);
    }
  }

  /** The last group's duplicates close the concatenation. */
  lemma AllDuplicatesSnoc(gs: seq<DuplicateFile>, i: nat)
    requires i < |gs|
    ensures AllDuplicates(gs[..i + 1]) == AllDuplicates(gs[..i]) + gs[i].duplicates
  {
    assert gs[..i + 1] == gs[..i] + [gs[i]];
    AllDuplicatesAppend(gs[..i], [gs[i]]);
    assert AllDuplicates([gs[i]]) == gs[i].duplicates + AllDuplicates([]);
  }

  /** A file is a member of the groups exactly when some group holds it. */
  lemma {:induction false} InMembers(gs: seq<DuplicateFile>, f: FileHash)
    ensures f in Members(gs) <==> exists i :: 0 <= i < |gs| && f in GroupMembers(gs[i])
  {
    if |gs| != 0 {
      InMembers(gs[1..], f);
      if f in Members(gs[1..]) {
        var i :| 0 <= i < |gs[1..]| && f in GroupMembers(gs[1..][i]);
        assert f in GroupMembers(gs[i + 1]);
      }
      if exists i :: 0 <= i < |gs| && f in GroupMembers(gs[i]) {
        var i :| 0 <= i < |gs| && f in GroupMembers(gs[i]);
        if i > 0 {
          assert f in GroupMembers(gs[1..][i - 1]);
        }
      }
    }
  }

  /** Number of duplicates over all groups, originals excluded. */
  function DuplicateCount(gs: seq<DuplicateFile>): nat
  {
    if |gs| == 0 then 0 else |gs[0].duplicates| + DuplicateCount(gs[1..])
  }

  lemma {:induction false} DuplicateCountIsLength(gs: seq<DuplicateFile>)
    ensures DuplicateCount(gs) == |AllDuplicates(gs)|
    ensures |Members(gs)| == |gs| + DuplicateCount(gs)
  {
    if |gs| != 0 {
      DuplicateCountIsLength(gs[1..]);
    }
  }

  const OriginalLabel := "Original: "
  const DuplicatesOpen := "Duplicates: [ "
  const DuplicatesSeparator := ", "
  const DuplicatesClose := " ]\n"

  /** `DuplicateFile.String` without colour: the original's path on its
      own line, then, only when there are duplicates, their paths joined
      by ", " inside "Duplicates: [ " and " ]". Written as the builder
      loop of the source. */
  method Render(g: DuplicateFile) returns (text: string)
    ensures |g.duplicates| == 0 ==> text == OriginalLabel + g.original.Path() + "\n"
    ensures |g.duplicates| > 0 ==>
              text == OriginalLabel + g.original.Path() + "\n"
                      + DuplicatesOpen + Join(Paths(g.duplicates), DuplicatesSeparator)
                      + DuplicatesClose
  {
    text := OriginalLabel + g.original.Path() + "\n";
    var n := |g.duplicates|;
    if n == 0 {
      return;
    }
    var head := text;
    text := text + DuplicatesOpen;
    var paths := Paths(g.duplicates);
    var i := 0;
    while i < n - 1
      invariant 0 <= i <= n - 1
      invariant text + Join(paths[i..], DuplicatesSeparator)
                == head + DuplicatesOpen + Join(paths, DuplicatesSeparator)
    {
      assert paths[i..][1..] == paths[i + 1..];
      text := text + g.duplicates[i].Path() + DuplicatesSeparator;
      i := i + 1;
    }
    assert paths[n - 1..] == [paths[n - 1]];
    text := text + g.duplicates[n - 1].Path() + DuplicatesClose;
  }
}

=== FILE: report.dfy ===
/** The integer part of `CalculateReport`: file counts and byte totals of
    the collected files, of the duplicates (originals excluded) and of the
    deleted files, before any conversion to kilobytes or percentages. */
module Report {
  import opened Records

  datatype Counts = Counts(
    collectedCount: nat, collectedBytes: nat,
    duplicateCount: nat, duplicateBytes: nat,
    deletedCount: nat, deletedBytes: nat)

  /** Total size of some walked files. */
  function SumData(fs: seq<FileData>): nat
  {
    if |fs| == 0 then 0 else SumData(fs[..|fs| - 1]) + fs[|fs| - 1].size
  }

  /** Total size of some hashed files. */
  function SumSizes(fs: seq<FileHash>): nat
  {
    if |fs| == 0 then 0 else SumSizes(fs[..|fs| - 1]) + fs[|fs| - 1].Size()
  }

  lemma {:induction false} SumSizesAppend(a: seq<FileHash>, b: seq<FileHash>)
    ensures SumSizes(a + b) == SumSizes(a) + SumSizes(b)
    decreases |b|
  {
    if |b| == 0 {
      assert a + b == a;
    } else {
      assert (a + b)[..|a + b| - 1] == a + b[..|b| - 1];
      SumSizesAppend(a, b[..|b| - 1]);
    }
  }

  /** The walked files behind some hashed files. */
  function Datas(fs: seq<FileHash>): (ds: seq<FileData>)
    ensures |ds| == |fs|
    ensures forall i :: 0 <= i < |fs| ==> ds[i] == fs[i].data
  {
    if |fs| == 0 then [] else Datas(fs[..|fs| - 1]) + [fs[|fs| - 1].data]
  }

  lemma {:induction false} SumDatas(fs: seq<FileHash>)
    ensures SumData(Datas(fs)) == SumSizes(fs)
  {
    if |fs| != 0 {
      SumDatas(fs[..|fs| - 1]);
      assert Datas(fs)[..|fs| - 1] == Datas(fs[..|fs| - 1]);
    }
  }

  /** The `sum` closure: a running total over a list. */
  method Sum(fs: seq<FileHash>) returns (total: nat)
    ensures total == SumSizes(fs)
  {
    total := 0;
    var i := 0;
    while i < |fs|
      invariant 0 <= i <= |fs|
      invariant total == SumSizes(fs[..i])
    {
      assert fs[..i + 1][..i] == fs[..i];
      total := total + fs[i].Size();
      i := i + 1;
    }
    assert fs[..i] == fs;
  }

  /** `CalculateReport` of the `pkg/muka` prototype, integer fields: the
      collected list's length and byte total, the number and byte total of
      every group's duplicates (never the originals), and the deleted
      list's length and byte total. */
  method CalculateReport(collected: seq<FileData>, duplicates: seq<DuplicateFile>, deleted: seq<FileHash>)
    returns (r: Counts)
    ensures r.collectedCount == |collected| && r.collectedBytes == SumData(collected)
    ensures r.duplicateCount == |AllDuplicates(duplicates)|
    ensures r.duplicateBytes == SumSizes(AllDuplicates(duplicates))
    ensures r.deletedCount == |deleted| && r.deletedBytes == SumSizes(deleted)
  {
    var collectedBytes := 0;
    var i := 0;
    while i < |collected|
      invariant 0 <= i <= |collected|
      invariant collectedBytes == SumData(collected[..i])
    {
      assert collected[..i + 1][..i] == collected[..i];
      collectedBytes := collectedBytes + collected[i].size;
      i := i + 1;
    }
    assert collected[..i] == collected;

    var duplicateBytes, duplicateCount := 0, 0;
    i := 0;
    while i < |duplicates|
      invariant 0 <= i <= |duplicates|
      invariant duplicateBytes == SumSizes(AllDuplicates(duplicates[..i]))
      invariant duplicateCount == |AllDuplicates(duplicates[..i])|
    {
      var s := Sum(duplicates[i].duplicates);
      AllDuplicatesSnoc(duplicates, i);
      SumSizesAppend(AllDuplicates(duplicates[..i]), duplicates[i].duplicates);
      duplicateBytes := duplicateBytes + s;
      duplicateCount := duplicateCount + |duplicates[i].duplicates|;
      i := i + 1;
    }
    assert duplicates[..i] == duplicates;

    var deletedBytes := Sum(deleted);
    r := Counts(|collected|, collectedBytes, duplicateCount, duplicateBytes, |deleted|, deletedBytes);
  }

  /** `CalculateReport` of the `muka` prototype, whose collected
      list is the hashed list itself. */
  method CalculateReportOfHashes(fileHashes: seq<FileHash>, duplicates: seq<DuplicateFile>, deleted: seq<FileHash>)
    returns (r: Counts)
    ensures r.collectedCount == |fileHashes| && r.collectedBytes == SumSizes(fileHashes)
    ensures r.duplicateCount == |AllDuplicates(duplicates)|
    ensures r.duplicateBytes == SumSizes(AllDuplicates(duplicates))
    ensures r.deletedCount == |deleted| && r.deletedBytes == SumSizes(deleted)
  {
    SumDatas(fileHashes);
    r := CalculateReport(Datas(fileHashes), duplicates, deleted);
  }
}

=== FILE: walk.dfy ===
/** The directory walk shared by every prototype's `CollectFiles`: a
    pre-order traversal of an ordered tree in which an excluded directory is
    pruned with its whole subtree, an excluded file is skipped, directories
    themselves are never recorded, and any entry the walk cannot read aborts
    the whole walk. The two earlier prototypes walk with no exclusions. */
module FileWalk {
  import opened Base
  import opened Records

  /** An entry of the walked tree, children in the order the walk visits
      them. `Fault` is an entry whose metadata or listing cannot be read. */
  datatype Node =
    | File(name: string, size: nat)
    | Dir(name: string, children: seq<Node>)
    | Fault(name: string)

  /** Compiled exclusion patterns, each a predicate on a base name. */
  datatype Options = Options(excludeDirs: seq<string -> bool>, excludeFiles: seq<string -> bool>)

  /** No exclusions at all: the walk of the two earlier prototypes. */
  const NoExclusions := Options([], [])

  /** The walk's error names the entry it could not read. */
  datatype WalkError = WalkError(path: string)

  /** The pattern loop of the walk callback: does any pattern match? */
  function MatchesAny(patterns: seq<string -> bool>, name: string): (r: bool)
    ensures r <==> exists i :: 0 <= i < |patterns| && patterns[i](name)
  {
    if |patterns| == 0 then false
    else patterns[0](name) || MatchesAny(patterns[1..], name)
  }

  function ChildPath(dir: string, name: string): string
  {
    dir + "/" + name
  }

  /** `p` names `dir` itself or an entry somewhere below it. */
  predicate Under(p: string, dir: string)
  {
    |p| >= |dir| && p[..|dir|] == dir
  }

  /** Being under a longer prefix implies being under a shorter one. */
  lemma UnderShorter(p: string, dir: string, more: string)
    requires Under(p, dir + more)
    ensures Under(p, dir)
  {
    assert p[..|dir|] == p[..|dir + more|][..|dir|];
  }

  /** The walk from entry `n` found at `path`. The error check comes
      before the exclusion check, as in the callback. Every recorded file,
      and the entry the walk fails on, lies at or below `path`. */
  function Walk(n: Node, path: string, opts: Options): (r: Result<seq<FileData>, WalkError>)
    ensures r.Ok? ==> forall x :: x in r.value ==> Under(x.path, path)
    ensures r.Err? ==> Under(r.error.path, path)
    decreases n
  {
    match n
    case Fault(_) => Err(WalkError(path))
    case File(name, size) =>
      if MatchesAny(opts.excludeFiles, name) then Ok([]) else Ok([FileData(path, size)])
    case Dir(name, cs) =>
      if MatchesAny(opts.excludeDirs, name) then Ok([])
      else
        var r := WalkChildren(cs, path, opts);
        assert r.Ok? ==> forall x :: x in r.value ==> Under(x.path, path) by {
          if r.Ok? {
            forall x | x in r.value ensures Under(x.path, path) { UnderShorter(x.path, path, "/"); }
          }
        }
        assert r.Err? ==> Under(r.error.path, path) by {
          if r.Err? { UnderShorter(r.error.path, path, "/"); }
        }
        r
  }

  /** The children of a directory in order; the first error stops the
      walk. Every recorded file, and the entry the walk fails on, lies
      strictly below `dir`. */
  function WalkChildren(cs: seq<Node>, dir: string, opts: Options): (r: Result<seq<FileData>, WalkError>)
    ensures r.Ok? ==> forall x :: x in r.value ==> Under(x.path, dir + "/")
    ensures r.Err? ==> Under(r.error.path, dir + "/")
    decreases cs
  {
    if |cs| == 0 then Ok([])
    else
      var child := ChildPath(dir, cs[0].name);
      assert child == (dir + "/") + cs[0].name;
      match Walk(cs[0], child, opts)
      case Err(e) =>
        UnderShorter(e.path, dir + "/", cs[0].name);
        Err(e)
      case Ok(first) =>
        assert forall x :: x in first ==> Under(x.path, dir + "/") by {
          forall x | x in first ensures Under(x.path, dir + "/") { UnderShorter(x.path, dir + "/", cs[0].name); }
        }
        match WalkChildren(cs[1..], dir, opts)
        case Err(e) => Err(e)
        case Ok(rest) => Ok(first + rest)
  }

  // ---------------------------------------------------------------------
  // A reference description: the flat list of leaves.

  /** A file or unreadable entry of the tree, with the names of every
      directory above it (outermost first). */
  datatype Leaf = Leaf(path: string, name: string, size: nat, dirs: seq<string>, fault: bool)

  /** Every leaf under `n`, in pre-order, with `dirs` the directories
      above `n`. */
  function Leaves(n: Node, path: string, dirs: seq<string>): seq<Leaf>
    decreases n
  {
    match n
    case Fault(name) => [Leaf(path, name, 0, dirs, true)]
    case File(name, size) => [Leaf(path, name, size, dirs, false)]
    case Dir(name, cs) => LeavesOf(cs, path, dirs + [name])
  }

  function LeavesOf(cs: seq<Node>, dir: string, dirs: seq<string>): seq<Leaf>
    decreases cs
  {
    if |cs| == 0 then []
    else Leaves(cs[0], ChildPath(dir, cs[0].name), dirs) + LeavesOf(cs[1..], dir, dirs)
  }

  /** A leaf is reached when no directory above it is excluded. */
  predicate Reached(l: Leaf, opts: Options)
  {
    forall i :: 0 <= i < |l.dirs| ==> !MatchesAny(opts.excludeDirs, l.dirs[i])
  }

  /** The files the walk should record: reached, not faulty, not excluded. */
  function Recorded(ls: seq<Leaf>, opts: Options): seq<FileData>
  {
    if |ls| == 0 then []
    else
      var l := ls[0];
      (if !l.fault && Reached(l, opts) && !MatchesAny(opts.excludeFiles, l.name)
       then [FileData(l.path, l.size)] else [])
      + Recorded(ls[1..], opts)
  }

  /** The first reached unreadable entry, if any. */
  function FirstFault(ls: seq<Leaf>, opts: Options): Option<string>
  {
    if |ls| == 0 then None
    else if ls[0].fault && Reached(ls[0], opts) then Some(ls[0].path)
    else FirstFault(ls[1..], opts)
  }

  /** The outcome the leaves call for: the first reached fault, or else
      every recorded file. */
  function Expected(ls: seq<Leaf>, opts: Options): Result<seq<FileData>, WalkError>
  {
    match FirstFault(ls, opts)
    case Some(p) => Err(WalkError(p))
    case None => Ok(Recorded(ls, opts))
  }

  lemma {:induction false} RecordedAppend(a: seq<Leaf>, b: seq<Leaf>, opts: Options)
    ensures Recorded(a + b, opts) == Recorded(a, opts) + Recorded(b, opts)
  {
    if |a| == 0 {
      assert a + b == b;
    } else {
      assert (a + b)[1..] == a[1..] + b;
      RecordedAppend(a[1..], b, opts);
    }
  }

  lemma {:induction false} FirstFaultAppend(a: seq<Leaf>, b: seq<Leaf>, opts: Options)
    ensures FirstFault(a + b, opts) == (if FirstFault(a, opts).Some? then FirstFault(a, opts) else FirstFault(b, opts))
  {
    if |a| == 0 {
      assert a + b == b;
    } else {
      assert (a + b)[1..] == a[1..] + b;
      FirstFaultAppend(a[1..], b, opts);
    }
  }

  /** Leaves remember every directory above them. */
  lemma {:induction false} LeavesKeepDirs(n: Node, path: string, dirs: seq<string>)
    ensures forall l :: l in Leaves(n, path, dirs) ==> |l.dirs| >= |dirs| && l.dirs[..|dirs|] == dirs
    decreases n
  {
    match n
    case Fault(_) =>
    case File(_, _) =>
    case Dir(name, cs) =>
      LeavesOfKeepDirs(cs, path, dirs + [name]);
      forall l | l in Leaves(n, path, dirs)
        ensures |l.dirs| >= |dirs| && l.dirs[..|dirs|] == dirs
      {
        assert l.dirs[..|dirs| + 1] == dirs + [name];
        assert l.dirs[..|dirs|] == (dirs + [name])[..|dirs|];
      }
  }

  lemma {:induction false} LeavesOfKeepDirs(cs: seq<Node>, dir: string, dirs: seq<string>)
    ensures forall l :: l in LeavesOf(cs, dir, dirs) ==> |l.dirs| >= |dirs| && l.dirs[..|dirs|] == dirs
    decreases cs
  {
    if |cs| != 0 {
      LeavesKeepDirs(cs[0], ChildPath(dir, cs[0].name), dirs);
      LeavesOfKeepDirs(cs[1..], dir, dirs);
    }
  }

  /** No leaf below an excluded directory is reached. */
  lemma {:induction false} PrunedLeaves(ls: seq<Leaf>, dirs: seq<string>, opts: Options)
    requires forall l :: l in ls ==> |l.dirs| >= |dirs| && l.dirs[..|dirs|] == dirs
    requires exists i :: 0 <= i < |dirs| && MatchesAny(opts.excludeDirs, dirs[i])
    ensures Recorded(ls, opts) == [] && FirstFault(ls, opts) == None
  {
    var i :| 0 <= i < |dirs| && MatchesAny(opts.excludeDirs, dirs[i]);
    if |ls| != 0 {
      assert ls[0] in ls;
      assert ls[0].dirs[i] == ls[0].dirs[..|dirs|][i];
      assert !Reached(ls[0], opts);
      assert forall l :: l in ls[1..] ==> l in ls;
      PrunedLeaves(ls[1..], dirs, opts);
    }
  }

  /** The walk agrees with the leaves: below directories none of which is
      excluded, walking `n` fails at the first reached unreadable entry,
      and otherwise records, in pre-order, exactly the files that sit
      under no excluded directory and whose own name is not excluded. */
  lemma {:induction false} WalkMatchesLeaves(n: Node, path: string, dirs: seq<string>, opts: Options)
    requires forall i :: 0 <= i < |dirs| ==> !MatchesAny(opts.excludeDirs, dirs[i])
    ensures Walk(n, path, opts) == Expected(Leaves(n, path, dirs), opts)
    decreases n
  {
    match n
    case Fault(_) =>
    case File(name, size) =>
      var ls := [Leaf(path, name, size, dirs, false)];
      assert ls[1..] == [];
      assert FirstFault(ls, opts) == None;
      assert Recorded(ls, opts)
             == (if MatchesAny(opts.excludeFiles, name) then [] else [FileData(path, size)]);
    case Dir(name, cs) =>
      var dirs' := dirs + [name];
      if MatchesAny(opts.excludeDirs, name) {
        LeavesOfKeepDirs(cs, path, dirs');
        assert dirs'[|dirs|] == name;
        PrunedLeaves(LeavesOf(cs, path, dirs'), dirs', opts);
      } else {
        WalkChildrenMatchesLeaves(cs, path, dirs', opts);
      }
  }

  lemma {:induction false} WalkChildrenMatchesLeaves(cs: seq<Node>, dir: string, dirs: seq<string>, opts: Options)
    requires forall i :: 0 <= i < |dirs| ==> !MatchesAny(opts.excludeDirs, dirs[i])
    ensures WalkChildren(cs, dir, opts) == Expected(LeavesOf(cs, dir, dirs), opts)
    decreases cs
  {
    if |cs| != 0 {
      var a := Leaves(cs[0], ChildPath(dir, cs[0].name), dirs);
      var b := LeavesOf(cs[1..], dir, dirs);
      WalkMatchesLeaves(cs[0], ChildPath(dir, cs[0].name), dirs, opts);
      WalkChildrenMatchesLeaves(cs[1..], dir, dirs, opts);
      RecordedAppend(a, b, opts);
      FirstFaultAppend(a, b, opts);
    }
  }

  /** From the root: the walk's outcome is the one its leaves call for. */
  lemma WalkFromRoot(root: Node, rootPath: string, opts: Options)
    ensures Walk(root, rootPath, opts) == Expected(Leaves(root, rootPath, []), opts)
  {
    WalkMatchesLeaves(root, rootPath, [], opts);
  }

  /** A tree without unreadable entries. */
  predicate Readable(n: Node)
    decreases n
  {
    match n
    case Fault(_) => false
    case File(_, _) => true
    case Dir(_, cs) => forall i :: 0 <= i < |cs| ==> Readable(cs[i])
  }

  /** The files of a tree in walk order, with nothing excluded. */
  function AllFiles(n: Node, path: string): seq<FileData>
    decreases n
  {
    match n
    case Fault(_) => []
    case File(_, size) => [FileData(path, size)]
    case Dir(_, cs) => AllFilesOf(cs, path)
  }

  function AllFilesOf(cs: seq<Node>, dir: string): seq<FileData>
    decreases cs
  {
    if |cs| == 0 then [] else AllFiles(cs[0], ChildPath(dir, cs[0].name)) + AllFilesOf(cs[1..], dir)
  }

  /** Without exclusions (the two earlier prototypes) a readable tree's
      walk records every file, directories never, in pre-order. */
  lemma {:induction false} WalkWithoutExclusions(n: Node, path: string)
    requires Readable(n)
    ensures Walk(n, path, NoExclusions) == Ok(AllFiles(n, path))
    decreases n
  {
    match n
    case File(_, _) =>
    case Dir(_, cs) =>
      WalkChildrenWithoutExclusions(cs, path);
  }

  lemma {:induction false} WalkChildrenWithoutExclusions(cs: seq<Node>, dir: string)
    requires forall i :: 0 <= i < |cs| ==> Readable(cs[i])
    ensures WalkChildren(cs, dir, NoExclusions) == Ok(AllFilesOf(cs, dir))
    decreases cs
  {
    if |cs| != 0 {
      WalkWithoutExclusions(cs[0], ChildPath(dir, cs[0].name));
      WalkChildrenWithoutExclusions(cs[1..], dir);
    }
  }

  /** A reached unreadable entry aborts the walk even when its own name
      matches an exclusion: the error is checked before the patterns. */
  lemma FaultAbortsEvenIfExcluded(name: string, path: string, opts: Options)
    requires MatchesAny(opts.excludeDirs, name) || MatchesAny(opts.excludeFiles, name)
    ensures Walk(Fault(name), path, opts) == Err(WalkError(path))
  {
  }
}
